=== FILE: README.md ===
# php-mcp-phpstan: the response mapper and the runner's decisions, in Dafny

This project models the part of php-mcp-phpstan that turns a PHPStan run into an MCP tool response.

`ResponseMapper` takes the decoded `--error-format=prettyJson` result and builds four things:

- a one-line human summary;
- a summary record (totals, file count, level, passed or failed);
- the flat list of normalised errors, each with a cleaned path, a coerced line number and a severity chosen from the rule identifier;
- a per-file breakdown keyed by cleaned path, in which a later file overwrites an earlier one with the same key.

It also wraps failures into the MCP error envelope.

`PhpStanRunner` decides how to run PHPStan and what to make of the result:

- which argument vector to run;
- how the process's outcome becomes either the decoded result or an error message (thrown exceptions, exit codes above 2, empty output, a non-object decoding);
- how `getVersion` reads the version out of `phpstan --version`.

Everything is written as pure functions over immutable datatypes:

- PHP's ordered arrays are sequences.
- Message fields that may be missing are `Option<Value>`.
- A decoded JSON value is the `Value` datatype.
- The process and the JSON decoder are function parameters.

Files:

| file | module | contents |
|---|---|---|
| base.dfy | `Base` | `Option`, `Result` |
| strings.dfy | `Strings` | `str_contains`, `str_replace` with an empty replacement, `ltrim`, `trim`, decimal rendering of an `int` |
| numeric.dfy | `NumericStrings` | PHP 8 numeric strings (`is_numeric`) and their `(int)` conversion |
| php_values.dfy | `PhpValues` | decoded values, `??`, `(bool)`, the `line` coercion |
| phpstan_output.dfy | `PhpStanOutput` | the decoded PHPStan result |
| severity.dfy | `Severity` | `mapSeverity` and its rule order |
| paths.dfy | `Paths` | `cleanFilePath` |
| seqs.dfy | `Sequences` | flattening a sequence of sequences, and where each part lands |
| mapper.dfy | `ResponseMapper` | `mapError`, `extractErrors`, `generateFileBreakdown`, `generateSummary`, `generateHumanReadableSummary`, `mapToMcpResponse`, `createErrorResponse` |
| flatten.dfy | `Flatten` | how the flat list and the breakdown relate to the input and to each other |
| human_text.dfy | `HumanText` | reading the summary line back |
| version.dfy | `VersionPattern` | the `--version` pattern `PHPStan - PHP Static Analysis Tool (\d+\.\d+\.\d+)` |
| runner.dfy | `PhpStanRunner` | `analyze`, `parsePhpStanOutput`, `getVersion` |
| findings.dfy | `Findings` | `generateSummary` as written, with the counterexample below |

`ResponseMapper.GenerateSummary` reads the `totals` entry whether the decoder left it as a PHP array or as an object. The code reads only the array form; see "## Findings". The rest of the model uses the corrected reading.

## Model

| member | source | states |
|---|---|---|
| Strings.ContainsIff | src/ResponseMapper.php:73 | `str_contains(s, t)` holds exactly when `t` occurs in `s` at some position |
| Strings.StripAllWithoutOccurrence | src/ResponseMapper.php:262 | `str_replace('/app/', '', p)` leaves a path without any "/app/" unchanged |
| Strings.TrimLeft | src/ResponseMapper.php:265 | `ltrim(s, c)` returns a suffix of `s` that does not start with `c`, and everything it dropped was `c` |
| Strings.Trim | src/PhpStanRunner.php:111 | `trim` returns a slice of its input outside which every character is one `trim` strips, and the slice neither starts nor ends with such a character |
| Strings.NatToDigits | src/ResponseMapper.php:57 | the decimal digits of a natural number: non-empty, digits only, no leading zero |
| Strings.DigitsRoundTrip | src/ResponseMapper.php:57 | reading those digits back gives the number |
| Strings.IntToString | src/ResponseMapper.php:57 | `(string) $line`: non-empty, digits after an optional '-', and the '-' is there exactly when the number is negative |
| Strings.IntToStringCanonical | src/ResponseMapper.php:57 | the rendering has no leading zero: it starts with '0' only when it is "0", and no digit after a '-' is a leading '0' |
| NumericStrings.DigitRun | src/ResponseMapper.php:48 | the longest prefix of digits: all digits, followed by a non-digit or the end |
| NumericStrings.ParseNumeric | src/ResponseMapper.php:48 | `is_numeric` on a string yields a decomposition with digits only and a non-empty mantissa |
| NumericStrings.TruncatedMagnitude | src/ResponseMapper.php:48 | the integer part of mantissa × 10^(−scale), computed exactly: it is at most the exact value and more than the exact value minus one |
| NumericStrings.TruncateNumeric | src/ResponseMapper.php:48 | `(int)` of a numeric string truncates its exact value toward zero |
| NumericStrings.IntStringRoundTrip | src/ResponseMapper.php:48 | the decimal rendering of any integer is numeric, and `(int)` of it gives the integer back |
| PhpValues.Coalesce | src/ResponseMapper.php:47 | `??`: a present, non-null value is kept; a missing or null one gives the default |
| PhpValues.ToBoolFalseValues | src/ResponseMapper.php:58 | `(bool)` is false exactly for null, false, 0, 0.0, "", "0" and the empty array |
| PhpValues.TruncateReal | src/ResponseMapper.php:48 | `(int)` of a float truncates toward zero |
| PhpValues.LineNumberCases | src/ResponseMapper.php:47-48 | the `line` field, case by case: missing or null gives 0; an int is kept; a float is truncated toward zero; a numeric string gives its `(int)` value; anything else gives 0 |
| PhpValues.LineNumberOfDecimalString | src/ResponseMapper.php:47-48 | a `line` given as a decimal string yields the number it spells |
| PhpValues.LineNumberOfNonNumeric | src/ResponseMapper.php:47-48 | a `line` that is missing, null, or neither an int, a float nor a numeric string yields 0 |
| Severity.MapSeverity | src/ResponseMapper.php:67-87 | info exactly when the identifier has "unused" or "dead" but not "deprecated"; warning exactly when it has "deprecated", or has "missingType" on an ignorable message and none of the earlier markers |
| Severity.IdentifierTextCases | src/ResponseMapper.php:69-70 | the identifier the rules test is the string identifier when there is one, and "" otherwise |
| Severity.IsIgnorableCases | src/ResponseMapper.php:81 | a missing flag is not ignorable; a present one is ignorable exactly when it is not one of PHP's false values |
| Severity.DeprecatedWins | src/ResponseMapper.php:73-75 | any identifier containing "deprecated" is a warning, whatever else it contains |
| Severity.UnusedOrDeadIsInfo | src/ResponseMapper.php:77-79 | without "deprecated", "unused" or "dead" gives info whatever the ignorable flag |
| Severity.MissingTypeNeedsIgnorable | src/ResponseMapper.php:81-86 | "missingType" with no earlier marker is a warning when the message is ignorable and an error otherwise |
| Severity.IgnorableOnlyMattersForMissingType | src/ResponseMapper.php:81-86 | without "missingType", changing the ignorable flag never changes the severity |
| Severity.NonStringIdentifierIsError | src/ResponseMapper.php:69-70 | a missing, null or non-string identifier is read as "" and gives error |
| Severity.DeprecatedUnusedThing | src/ResponseMapper.php:73-79 | "deprecated.unused.thing" is a warning: the first matching rule wins |
| Paths.CleanFilePath | src/ResponseMapper.php:259-266 | a cleaned path never starts with '/' and is never longer than the raw one |
| Paths.CleanDropsContainerRoot | src/ResponseMapper.php:262 | a leading "/app/" makes no difference to the cleaned path |
| Paths.CleanDropsLeadingSlash | src/ResponseMapper.php:265 | a leading '/' that does not begin "/app/" makes no difference to the cleaned path |
| Paths.CleanKeepsRelativePath | src/ResponseMapper.php:259-266 | a path without "/app/" and without a leading '/' comes back unchanged |
| Paths.CleanRootedForms | src/ResponseMapper.php:259-266 | for such a path p not starting "app/", both "/app/" + p and "/" + p clean to p (so "/app/src/Example.php" and "/src/Example.php" both give "src/Example.php") |
| ResponseMapper.MapError | src/ResponseMapper.php:45-60 | the file is the cleaned raw path, and the location is that file, ':' and the decimal line |
| ResponseMapper.MapErrorFields | src/ResponseMapper.php:47-58 | the message and rule echo present non-null fields, or default to "Unknown error" and "unknown"; the line, severity and ignorable flag are their fields' coercions |
| ResponseMapper.MapMessagesLength | src/ResponseMapper.php:182-191 | mapping a message list never yields more errors than there are entries |
| ResponseMapper.MapMessagesLoop | src/ResponseMapper.php:182-191 | the inner `foreach` computes the mapped message list |
| ResponseMapper.ExtractErrorsLoop | src/ResponseMapper.php:157-196 | the nested `foreach` builds exactly the flat list of mapped messages, file by file |
| ResponseMapper.IndexOfKey | src/ResponseMapper.php:247 | finds a row holding the key, or reports that none does; with distinct keys it is the only such row |
| ResponseMapper.Lookup | src/ResponseMapper.php:247 | a key has a value exactly when some row holds it |
| ResponseMapper.Put | src/ResponseMapper.php:247-250 | assigning into the ordered array keeps its keys distinct |
| ResponseMapper.PutLookupSame | src/ResponseMapper.php:247-250 | after the assignment the key holds the new value |
| ResponseMapper.PutLookupOther | src/ResponseMapper.php:247-250 | the assignment leaves every other key's value alone |
| ResponseMapper.PutKeys | src/ResponseMapper.php:247-250 | the assignment adds its own key and no other |
| ResponseMapper.PutNewKey | src/ResponseMapper.php:247-250 | a new key is appended at the end, after the existing rows |
| ResponseMapper.PutExistingKeepsPositions | src/ResponseMapper.php:247 | assigning to a key already present keeps the number of rows and every row's key in its place |
| ResponseMapper.PutAll | src/ResponseMapper.php:223-251 | the successive assignments give distinct keys and never more rows than assignments |
| ResponseMapper.Breakdown | src/ResponseMapper.php:205-254 | the breakdown's keys are distinct |
| ResponseMapper.ReportFile | src/ResponseMapper.php:229-245 | one file's report: the raw number of message entries and the mapped array ones |
| ResponseMapper.GenerateFileBreakdown | src/ResponseMapper.php:205-254 | the `foreach` over the files builds the breakdown |
| ResponseMapper.GenerateSummary | src/ResponseMapper.php:96-116 | the totals are copied; files analysed is the number of file entries; the level is echoed; warnings are 0; "passed" and "100%" exactly when there are no errors, "failed" and "0%" otherwise |
| ResponseMapper.MapToMcpResponse | src/ResponseMapper.php:19-36 | the response's summary, text, errors and files come from the four builders on the same input |
| ResponseMapper.CreateErrorResponse | src/ResponseMapper.php:273-287 | the code and message are echoed, and the text is "PHPStan Analysis Failed: ", then the message itself, then " ❌" |
| ResponseMapper.CreateDefaultErrorResponse | src/ResponseMapper.php:273 | the default code is -32603 |
| ResponseMapper.ErrorTextRoundTrip | src/ResponseMapper.php:279 | the message can be read back out of the error text |
| Flatten.ExtractErrorsConcat | src/ResponseMapper.php:175-193 | the flat list of two file lists together is the two flat lists concatenated |
| Flatten.PerFileJoin | src/ResponseMapper.php:175 | the per-file lists of two file lists together are the two per-file lists concatenated |
| Flatten.SilentFile | src/ResponseMapper.php:181 | a single file without a usable or non-empty message list yields no errors |
| Flatten.FileWithoutMessagesContributesNothing | src/ResponseMapper.php:181 | a file without a usable or non-empty message list adds nothing to the flat list |
| Flatten.ReportOfCounts | src/ResponseMapper.php:229-245 | a file's report never lists more messages than it counts, and a file without a usable message list reports 0 and nothing |
| Flatten.MapMessagesMembership | src/ResponseMapper.php:182-191 | an error is in a file's mapped list exactly when some array entry of the list maps to it |
| Flatten.ExtractedErrorsAreProduced | src/ResponseMapper.php:157-196 | every extracted error is the mapping of some array message of some file |
| Flatten.ProducedErrorsAreExtracted | src/ResponseMapper.php:157-196 | the mapping of every array message of every file is extracted |
| Flatten.ExtractErrorsMembership | src/ResponseMapper.php:157-196 | both directions together: extracted exactly when produced by some message |
| Flatten.FileSlice | src/ResponseMapper.php:175-193 | each file's mapped messages sit, contiguous and in order, at that file's offset in the flat list |
| Flatten.PutAllDistinct | src/ResponseMapper.php:223-251 | with no repeated key, the assignments keep every row, in order |
| Flatten.PutAllKeys | src/ResponseMapper.php:223-251 | the keys present are exactly the keys assigned |
| Flatten.PutAllLastWins | src/ResponseMapper.php:247-250 | a key holds the value of its last assignment |
| Flatten.BreakdownWithoutCollisions | src/ResponseMapper.php:205-254 | when no two paths clean to the same key, there is one row per file, in file order, with that file's report |
| Flatten.BreakdownLastWins | src/ResponseMapper.php:247-250 | a later file overwrites an earlier one with the same cleaned path |
| Flatten.BreakdownFileWithoutMessages | src/ResponseMapper.php:229-250 | a file without a usable message list still gets a row, with count 0 and no messages |
| Flatten.BreakdownKeys | src/ResponseMapper.php:228-247 | the keys are exactly the cleaned raw paths |
| Flatten.MapMessagesOfWellFormed | src/ResponseMapper.php:182-191 | when every entry is an array, none is skipped: entry j of the result is the mapping of message j |
| Flatten.MapMessagesJoin | src/ResponseMapper.php:182-191 | the mapped list of two message lists together is the two mapped lists concatenated, so entries keep their order |
| Flatten.MapMessagesSingle | src/ResponseMapper.php:186-189 | a single entry gives its mapped error if it is an array, and nothing otherwise |
| Flatten.ErrorCountOfWellFormed | src/ResponseMapper.php:234-245 | then a file's error count is the number of its mapped messages |
| Flatten.SumOfEntriesUpTo | src/ResponseMapper.php:223-251 | with well-formed messages, the error counts of the first n rows add up to the offset of file n in the flat list |
| Flatten.SumOfEntries | src/ResponseMapper.php:223-251 | then the error counts add up to the length of the flat list |
| Flatten.BreakdownPartitionsErrors | src/ResponseMapper.php:157-254 | with all messages well formed and no colliding paths: row i holds exactly file i's slice of the flat list, its count is that slice's length, and the counts sum to the flat list's length |
| HumanText.ReadWordsOfPhrase | src/ResponseMapper.php:141-147 | words joined by single spaces read back as the same words |
| HumanText.ReadBackSummaryLine | src/ResponseMapper.php:123-148 | the line reads back as the summary's error and file counts. Zero errors gives "No errors" and "file(s)". Otherwise "error" and "file" appear exactly when the count is 1 |
| HumanText.StatusesDiffer | src/ResponseMapper.php:137-138 | the passed and failed closings have the same length and no line ends with both |
| HumanText.SummaryLineStatus | src/ResponseMapper.php:135-147 | the line ends with "✅ Analysis passed" exactly when the status is "passed", and with "❌ Analysis failed" otherwise |
| HumanText.SummaryLineLevel | src/ResponseMapper.php:135-147 | the line closes with "(Level <level>) " followed by the icon and words of the status, in both the zero and the non-zero form |
| HumanText.ResponseTextAgrees | src/ResponseMapper.php:19-36 | the response text reads back as the totals' error count and the number of file entries, and it ends with the passed status exactly when that count is 0 |
| VersionPattern.VersionAt | src/PhpStanRunner.php:112 | a version read at the start of a string has the shape digits.digits.digits, is a prefix of the string, and is not followed by a further digit, as the greedy `\d+` takes every digit |
| VersionPattern.NoVersionAt | src/PhpStanRunner.php:112 | when no version is read, no prefix has that shape |
| VersionPattern.VersionAtIff | src/PhpStanRunner.php:112 | a version is read exactly when some prefix has the shape |
| VersionPattern.FirstMatch | src/PhpStanRunner.php:112 | the leftmost position where the banner is directly followed by a version; none exists before it, or none at all |
| VersionPattern.FindVersion | src/PhpStanRunner.php:112-113 | a version is found exactly when the pattern matches somewhere; what is found has the version shape and is the text the greedy group captures right after the banner at the leftmost match |
| PhpStanRunner.DefaultRunnerInvocation | src/PhpStanRunner.php:17-40 | with the constructor's defaults, the analysis runs "vendor/bin/phpstan" on the path with a time limit of 300 seconds |
| PhpStanRunner.AnalyseCommand | src/PhpStanRunner.php:30-37 | the binary, "analyse", the JSON format flag, "--level=max" and "--no-progress", with the path as the sixth and last argument |
| PhpStanRunner.ParseOutput | src/PhpStanRunner.php:77-86 | only a decoded object is accepted; any other JSON value fails with "Invalid PHPStan output format"; a decoding error fails with its own message |
| PhpStanRunner.Analyze | src/PhpStanRunner.php:28-70 | it succeeds exactly when the process finished with an exit code of at most 2 and its output is empty or decodes to an object. Empty output gives the zero result, anything else the decoded object |
| PhpStanRunner.AnalyzeFailures | src/PhpStanRunner.php:42-83 | a thrown run fails with "Failed to execute PHPStan: " + message; an exit code above 2 with "PHPStan execution failed: " + stderr; a non-object or undecodable output with the decoder's verdict |
| PhpStanRunner.ExitCodeDecides | src/PhpStanRunner.php:48-55 | with decodable output, the analysis succeeds exactly when the exit code is absent or at most 2 |
| PhpStanRunner.EmptyOutputSkipsDecoding | src/PhpStanRunner.php:57-69 | after a non-fatal exit, the output "" or "0" gives the synthesised clean result whatever the decoder says, and any other output is decoded |
| PhpStanRunner.StderrOnlyMattersWhenFatal | src/PhpStanRunner.php:49-55 | for exit codes up to 2, standard error never changes the result |
| PhpStanRunner.FatalExitIgnoresOutput | src/PhpStanRunner.php:53-55 | after an exit code above 2, standard output and the decoder never matter, and the error message contains standard error |
| PhpStanRunner.FatalExitErrorResponse | src/PhpStanRunner.php:53-55 | that message, with anything put in front of it, reaches the error envelope's text with standard error intact |
| PhpStanRunner.EmptyOutputPasses | src/PhpStanRunner.php:57-67 | the zero result maps to a passing report with no errors, no files and no rows; its line reads "No errors … 0 file(s)" and ends with "✅ Analysis passed" |
| PhpStanRunner.GetVersion | src/PhpStanRunner.php:102-117 | a throwing probe fails; a probe that does not exit with 0 gives no version. Otherwise a version is returned exactly when the trimmed output matches the pattern, and it is the text captured at the leftmost match |
| Findings.TotalsAsWritten | src/ResponseMapper.php:98-100 | as written, only an array `totals` is read; an object one counts as zero errors |
| Findings.GenerateSummaryAsWritten | src/ResponseMapper.php:96-116 | as written, object `totals` always give zero errors and "passed"; array `totals` give the corrected summary |
| Findings.ObjectTotalsReadAsPassed | src/ResponseMapper.php:98-105 | counterexample: two extracted errors and object totals of 2 read as "passed" with 0 errors, where the corrected summary says "failed" |
| Findings.SummaryIgnoresTotalsShape | src/ResponseMapper.php:96-116 | corrected: the summary is the same for both forms of `totals`, and it passes exactly when their error count is 0 |

## Left out

- `isAvailable` (src/PhpStanRunner.php:91-97) is an existence probe with no logic beyond the process's success, so it is not modelled.
- Spawning the process, the time limit, and Symfony `Process` internals are left out. `run` is a parameter. A timeout or a failed start is one of its `Threw` outcomes. The limit itself is only passed along in the `Invocation`.
- JSON decoding is left out; `decode` is a parameter. The datatype for a decoded result covers only the keys the mapper reads.
- Float precision, NaN and infinities are left out. A JSON float is a `real`.
- The 64-bit range of `int` is left out. `(int)` of a numeric string or a float is exact truncation on unbounded integers, so out-of-range values do not follow PHP's 64-bit conversion, which saturates for numeric strings and is undefined for floats.
- `totals` counts other than integers, and the `is_int` and `is_string` fallbacks of `generateHumanReadableSummary` (src/ResponseMapper.php:125-135), are left out. The summary fields are typed, so these fallbacks never apply.
- Numeric-string keys of `files`, which PHP turns into integer keys, are left out. `(string) $filePath` gives the same text back.
- A `files` entry that is a JSON scalar rather than an object is left out. The code then counts 0 files and extracts nothing; the model's `files` is always a sequence.
- A `messages` field that is a JSON object instead of a list is covered: the model reads it as `None`, because `is_array` is false for it.
- The `errors` key of the runner's synthesised empty result is left out, because nothing reads it.
- The nesting of the response arrays is left out: `content`/`type` and the `error` sub-array. The model keeps their fields in flat records.
- The default `level = 'max'` of `mapToMcpResponse` is left out: callers pass the level.
- `PhpStanMcpService`, `McpServer` and `bin/server.php` are registration and bootstrap glue, so they are not part of this model. One consequence: the level the caller requests is echoed in the summary, but the command always analyses at "--level=max".
- The exception class of a failure is left out. A `Failure` carries only the message, and `getVersion` propagates the probe's own message unwrapped.
- `getVersion`: that trimming the output never changes the match is not proved. The model searches the trimmed output, as the code does.
- NumericStrings.ParseNumeric: its own contract states only that the decomposition is well formed. Its agreement with `(int)` is stated by `NumericStrings.IntStringRoundTrip`.

## Findings

| source | as written | input that shows it | evidently intended | confidence | as-written member | corrected member |
|---|---|---|---|---|---|---|
| src/ResponseMapper.php:98-100 | `generateSummary` reads the totals only when `is_array($totals)`. The runner returns `(array) json_decode($output, false)` (src/PhpStanRunner.php:79-85), which converts only the top level, so `totals` arrives as an object and is read as zero. | totals `{"errors": 2, "file_errors": 1}` decoded as an object, with one file holding two messages | object totals are read like array totals, giving 2 errors and status "failed" | high that the two pieces disagree; not executed | Findings.GenerateSummaryAsWritten, Findings.ObjectTotalsReadAsPassed | ResponseMapper.GenerateSummary, Findings.SummaryIgnoresTotalsShape |

=== FILE: base.dfy ===
/**
 * Failure-carrying wrappers shared by every module of the model.
 * A PHP `null` return becomes `None`; a thrown exception becomes `Failure`
 * carrying the exception's message.
 */
module Base {

  datatype Option<+T> = None | Some(value: T)

  datatype Result<+T, +E> = Success(value: T) | Failure(error: E)
}

=== FILE: findings.dfy ===
/**
 * The summary as the mapper's code reads `totals`: only a PHP array is
 * looked into. The runner hands over `(array) json_decode(..., false)`,
 * which converts the top level only, so a real `totals` is still an object,
 * the `is_array` test fails, and every analysis reports zero errors and "passed".
 * `ResponseMapper.GenerateSummary` is the corrected reading used everywhere
 * else in this model.
 */
module Findings {
  import opened Base
  import opened PhpValues
  import opened PhpStanOutput
  import opened ResponseMapper

  /** The counts as written: an object `totals` is treated like a missing one. */
  function TotalsAsWritten(t: TotalsEntry): (c: Totals)
    ensures t.ArrayTotals? ==> c == t.counts
    ensures !t.ArrayTotals? ==> c == Totals(0, 0)
  {
    match t
    case ArrayTotals(c) => c
    case _ => Totals(0, 0)
  }

  /** `generateSummary` as written. */
  function GenerateSummaryAsWritten(out: Output, level: string): (s: Summary)
    ensures out.totals.ObjectTotals? ==> s.totalErrors == 0 && s.filesWithErrors == 0 && s.status == "passed"
    ensures !out.totals.ObjectTotals? ==> s == GenerateSummary(out, level)
  {
    SummaryFromTotals(TotalsAsWritten(out.totals), |out.files|, level)
  }

  /** One file with two messages. */
  const OneFileTwoMessages := [FileEntry("/app/src/A.php", FileData(Some([
    Message(MessageFields(Some(Str("first")), Some(Int(3)), None, None)),
    Message(MessageFields(Some(Str("second")), Some(Int(7)), None, None))])))]

  /** That file, with object totals counting two errors in one file, as the decoder leaves them. */
  const TwoErrorsAsObject := Output(ObjectTotals(Totals(2, 1)), OneFileTwoMessages)

  /** Counterexample: with object totals of two errors and two extracted errors, the code as written reports "passed" with no errors. */
  lemma ObjectTotalsReadAsPassed()
    ensures |ExtractErrors(TwoErrorsAsObject.files)| == 2
    ensures var written := GenerateSummaryAsWritten(TwoErrorsAsObject, "max");
      written.status == "passed" && written.totalErrors == 0
    ensures GenerateSummary(TwoErrorsAsObject, "max").status == "failed"
  {
    var ms := MessagesOf(TwoErrorsAsObject.files[0]);
    assert |MapMessages(ms, "/app/src/A.php")| == 2 by {
      assert MapMessages(ms[..1], "/app/src/A.php") == MapMessages([], "/app/src/A.php") + [MapError(ms[0].fields, "/app/src/A.php")];
    }
    assert TwoErrorsAsObject.files[..0] == [];
  }

  /** Corrected: the summary is the same whichever way the counts are held. */
  lemma SummaryIgnoresTotalsShape(c: Totals, files: seq<FileEntry>, level: string)
    ensures GenerateSummary(Output(ArrayTotals(c), files), level) == GenerateSummary(Output(ObjectTotals(c), files), level)
    ensures GenerateSummary(Output(ObjectTotals(c), files), level).status == "passed" <==> c.errors == 0
  {
  }
}

=== FILE: flatten.dfy ===
/**
 * How the flat error list and the per-file breakdown relate to the raw file
 * entries and to each other.
 */
module Flatten {
  import opened Base
  import opened PhpStanOutput
  import opened Paths
  import opened ResponseMapper
  import opened Sequences

  lemma PerFileJoin(a: seq<FileEntry>, b: seq<FileEntry>)
    ensures PerFile(a + b) == PerFile(a) + PerFile(b)
  {
    MapEachJoin(a, b, FileErrors);
  }

  /** The error list of a concatenation of file lists is the concatenation of their error lists. */
  lemma ExtractErrorsConcat(a: seq<FileEntry>, b: seq<FileEntry>)
    ensures ExtractErrors(a + b) == ExtractErrors(a) + ExtractErrors(b)
  {
    PerFileJoin(a, b);
    ConcatJoin(PerFile(a), PerFile(b));
  }

  lemma SilentFile(f: FileEntry)
    requires f.data.messages.None? || f.data.messages.value == []
    ensures ExtractErrors([f]) == []
  {
    assert PerFile([f]) == [[]];
    ConcatAppend<NormalizedError>([], []);
  }

  /**
   * A file's report never lists more messages than it counts, since entries
   * that are not arrays are counted but not mapped; a file without a usable
   * message list reports zero and nothing.
   */
  lemma ReportOfCounts(f: FileEntry)
    ensures |ReportOf(f).messages| <= ReportOf(f).errorCount
    ensures f.data.messages.None? ==> ReportOf(f) == FileReport(0, [])
  {
    MapMessagesLength(MessagesOf(f), f.path);
  }

  /** A file entry without a message list contributes nothing to the error list, wherever it stands. */
  lemma FileWithoutMessagesContributesNothing(a: seq<FileEntry>, f: FileEntry, b: seq<FileEntry>)
    requires f.data.messages.None? || f.data.messages.value == []
    ensures ExtractErrors(a + [f] + b) == ExtractErrors(a + b)
  {
    var ea, eb := ExtractErrors(a), ExtractErrors(b);
    ExtractErrorsConcat(a + [f], b);
    ExtractErrorsConcat(a, [f]);
    SilentFile(f);
    assert ExtractErrors(a + [f]) == ea;
    ExtractErrorsConcat(a, b);
  }

  /** Message `j` of file `k` is well formed and maps to `e`. */
  predicate ProducedBy(files: seq<FileEntry>, k: int, j: int, e: NormalizedError) {
    && 0 <= k < |files|
    && 0 <= j < |MessagesOf(files[k])|
    && MessagesOf(files[k])[j].Message?
    && e == MapError(MessagesOf(files[k])[j].fields, files[k].path)
  }

  lemma MapMessagesMembership(ms: seq<RawMessage>, path: string, e: NormalizedError)
    ensures e in MapMessages(ms, path) <==>
      exists j :: 0 <= j < |ms| && ms[j].Message? && e == MapError(ms[j].fields, path)
  {
    var parts := MessageParts(ms, path);
    ConcatMembership(parts, e);
    if e in MapMessages(ms, path) {
      var j :| 0 <= j < |parts| && e in parts[j];
      assert ms[j].Message? && e == MapError(ms[j].fields, path);
    }
    if exists j :: 0 <= j < |ms| && ms[j].Message? && e == MapError(ms[j].fields, path) {
      var j :| 0 <= j < |ms| && ms[j].Message? && e == MapError(ms[j].fields, path);
      assert e in parts[j];
    }
  }

  /** Every error of the flat list comes from a well-formed message of some file. */
  lemma ExtractedErrorsAreProduced(files: seq<FileEntry>, e: NormalizedError)
    requires e in ExtractErrors(files)
    ensures exists k, j :: ProducedBy(files, k, j, e)
  {
    ConcatMembership(PerFile(files), e);
    var k :| 0 <= k < |files| && e in PerFile(files)[k];
    MapMessagesMembership(MessagesOf(files[k]), files[k].path, e);
    var j :| 0 <= j < |MessagesOf(files[k])| && MessagesOf(files[k])[j].Message?
      && e == MapError(MessagesOf(files[k])[j].fields, files[k].path);
    assert ProducedBy(files, k, j, e);
  }

  /** Every well-formed message of every file has its error in the flat list. */
  lemma ProducedErrorsAreExtracted(files: seq<FileEntry>, k: nat, j: nat, e: NormalizedError)
    requires ProducedBy(files, k, j, e)
    ensures e in ExtractErrors(files)
  {
    MapMessagesMembership(MessagesOf(files[k]), files[k].path, e);
    assert e in PerFile(files)[k];
    ConcatMembership(PerFile(files), e);
  }

  /**
   * Nothing is invented and nothing is lost: an error is in the flat list
   * exactly when some well-formed message of some file maps to it.
   */
  lemma ExtractErrorsMembership(files: seq<FileEntry>, e: NormalizedError)
    ensures e in ExtractErrors(files) <==> exists k, j :: ProducedBy(files, k, j, e)
  {
    if e in ExtractErrors(files) {
      ExtractedErrorsAreProduced(files, e);
    }
    if exists k, j :: ProducedBy(files, k, j, e) {
      var k, j :| ProducedBy(files, k, j, e);
      ProducedErrorsAreExtracted(files, k, j, e);
    }
  }

  /** Where the errors of file `k` start in the flat list. */
  function Offset(files: seq<FileEntry>, k: nat): nat
    requires k <= |files|
  {
    |ExtractErrors(files[..k])|
  }

  /** `msgs` is the slice of the flat list between the offsets of files `k` and `k + 1`. */
  predicate SliceOf(files: seq<FileEntry>, k: nat, msgs: seq<NormalizedError>)
    requires k < |files|
  {
    var a := Offset(files, k);
    var b := Offset(files, k + 1);
    a <= b <= |ExtractErrors(files)| && ExtractErrors(files)[a..b] == msgs
  }

  /** Order is kept: the errors of file `k` are one contiguous slice of the flat list, after those of files 0..k-1. */
  lemma FileSlice(files: seq<FileEntry>, k: nat)
    requires k < |files|
    ensures Offset(files, k) + |FileErrors(files[k])| == Offset(files, k + 1)
    ensures SliceOf(files, k, FileErrors(files[k]))
  {
    PerFilePrefix(files, k);
    PerFilePrefix(files, k + 1);
    PartSlice(PerFile(files), k);
  }

  /** No two raw paths clean to the same key. */
  predicate NoCollisions(files: seq<FileEntry>) {
    forall i, j :: 0 <= i < j < |files| ==> CleanFilePath(files[i].path) != CleanFilePath(files[j].path)
  }

  /** Rows with pairwise distinct keys are stored as they come. */
  lemma {:induction false} PutAllDistinct(entries: seq<FileRow>)
    requires KeysDistinct(entries)
    ensures PutAll(entries) == entries
    decreases |entries|
  {
    if |entries| > 0 {
      var n := |entries| - 1;
      var prev := entries[..n];
      assert KeysDistinct(prev);
      PutAllDistinct(prev);
      PutNewKey(prev, entries[n].key, entries[n].report);
      assert prev + [entries[n]] == entries;
    }
  }

  /** The keys after the puts are the keys put. */
  lemma {:induction false} PutAllKeys(entries: seq<FileRow>, key: string)
    ensures HasKey(PutAll(entries), key) <==> HasKey(entries, key)
    decreases |entries|
  {
    if |entries| > 0 {
      var n := |entries| - 1;
      var prev := entries[..n];
      assert PutAll(entries) == Put(PutAll(prev), entries[n].key, entries[n].report);
      PutAllKeys(prev, key);
      PutKeys(PutAll(prev), entries[n].key, entries[n].report, key);
      assert HasKey(entries, key) <==> HasKey(prev, key) || entries[n].key == key by {
        if HasKey(prev, key) {
          var i :| 0 <= i < n && prev[i].key == key;
          assert entries[i].key == key;
        }
        if HasKey(entries, key) {
          var i :| 0 <= i < |entries| && entries[i].key == key;
          if i < n {
            assert prev[i].key == key;
          }
        }
      }
    }
  }

  /** The value under a key is the one put last. */
  lemma {:induction false} PutAllLastWins(entries: seq<FileRow>, i: nat)
    requires i < |entries|
    requires forall j :: i < j < |entries| ==> entries[j].key != entries[i].key
    ensures Lookup(PutAll(entries), entries[i].key) == Some(entries[i].report)
    decreases |entries|
  {
    var n := |entries| - 1;
    var prev := entries[..n];
    var key := entries[i].key;
    var last := entries[n];
    assert PutAll(entries) == Put(PutAll(prev), last.key, last.report);
    if i < n {
      assert prev[i] == entries[i];
      assert forall j :: i < j < n ==> prev[j].key != prev[i].key by {
        assert forall j :: 0 <= j < n ==> prev[j] == entries[j];
      }
      PutAllLastWins(prev, i);
      PutLookupOther(PutAll(prev), last.key, last.report, key);
    } else {
      PutLookupSame(PutAll(prev), key, entries[i].report);
    }
  }

  /** Without collisions there is one row per file entry, in file order. */
  lemma BreakdownWithoutCollisions(files: seq<FileEntry>)
    requires NoCollisions(files)
    ensures Breakdown(files) == Entries(files)
    ensures |Breakdown(files)| == |files|
    ensures forall i :: 0 <= i < |files| ==>
      Breakdown(files)[i] == FileRow(CleanFilePath(files[i].path), ReportOf(files[i]))
  {
    PutAllDistinct(Entries(files));
  }

  /**
   * A later file overwrites an earlier one whose path cleans to the same key:
   * the row of a key holds the report of the last file with that key.
   */
  lemma BreakdownLastWins(files: seq<FileEntry>, i: nat)
    requires i < |files|
    requires forall j :: i < j < |files| ==> CleanFilePath(files[j].path) != CleanFilePath(files[i].path)
    ensures Lookup(Breakdown(files), CleanFilePath(files[i].path)) == Some(ReportOf(files[i]))
  {
    var es := Entries(files);
    assert forall j :: i < j < |es| ==> es[j].key != es[i].key;
    PutAllLastWins(es, i);
  }

  /** A file without a usable message list still gets its row: zero errors, no messages. */
  lemma BreakdownFileWithoutMessages(files: seq<FileEntry>, i: nat)
    requires i < |files| && files[i].data.messages.None?
    requires forall j :: i < j < |files| ==> CleanFilePath(files[j].path) != CleanFilePath(files[i].path)
    ensures Lookup(Breakdown(files), CleanFilePath(files[i].path)) == Some(FileReport(0, []))
  {
    BreakdownLastWins(files, i);
  }

  /** The keys of the breakdown are exactly the cleaned raw paths. */
  lemma BreakdownKeys(files: seq<FileEntry>, key: string)
    ensures HasKey(Breakdown(files), key) <==> exists i :: 0 <= i < |files| && CleanFilePath(files[i].path) == key
  {
    var es := Entries(files);
    PutAllKeys(es, key);
    if HasKey(es, key) {
      var i :| 0 <= i < |es| && es[i].key == key;
      assert CleanFilePath(files[i].path) == key;
    }
  }

  /** Every message entry is an object or a list: none is skipped. */
  predicate AllWellFormed(files: seq<FileEntry>) {
    forall k :: 0 <= k < |files| ==> FileWellFormed(files[k])
  }

  predicate FileWellFormed(f: FileEntry) {
    forall j :: 0 <= j < |MessagesOf(f)| ==> MessagesOf(f)[j].Message?
  }

  /** When every entry is an array, none is skipped: error `j` is the mapping of entry `j`. */
  lemma MapMessagesOfWellFormed(ms: seq<RawMessage>, path: string)
    requires forall j :: 0 <= j < |ms| ==> ms[j].Message?
    ensures |MapMessages(ms, path)| == |ms|
    ensures forall j :: 0 <= j < |ms| ==> MapMessages(ms, path)[j] == MapError(ms[j].fields, path)
  {
    var parts := MessageParts(ms, path);
    assert forall j :: 0 <= j < |ms| ==> parts[j] == [MapError(ms[j].fields, path)];
    ConcatSingletons(parts);
  }

  /** Mapping a list split in two maps each part in turn: the order of the messages is kept. */
  lemma MapMessagesJoin(a: seq<RawMessage>, b: seq<RawMessage>, path: string)
    ensures MapMessages(a + b, path) == MapMessages(a, path) + MapMessages(b, path)
  {
    MapEachJoin(a, b, EntryMapper(path));
    ConcatJoin(MessageParts(a, path), MessageParts(b, path));
  }

  /** A single entry maps to its error when it is an array, and to nothing otherwise. */
  lemma MapMessagesSingle(m: RawMessage, path: string)
    ensures MapMessages([m], path) == if m.Message? then [MapError(m.fields, path)] else []
  {
    assert MessageParts([m], path) == [] + [MapOne(m, path)];
    ConcatAppend([], MapOne(m, path));
  }

  /** Sum of the `error_count` values of the rows. */
  function SumErrorCounts(rows: seq<FileRow>): nat {
    if |rows| == 0 then 0 else SumErrorCounts(rows[..|rows| - 1]) + rows[|rows| - 1].report.errorCount
  }

  /** The well-formed messages of a file are all mapped: its error count is its number of errors. */
  lemma ErrorCountOfWellFormed(files: seq<FileEntry>, k: nat)
    requires AllWellFormed(files) && k < |files|
    ensures ReportOf(files[k]).errorCount == |FileErrors(files[k])|
  {
    assert FileWellFormed(files[k]);
    MapMessagesOfWellFormed(MessagesOf(files[k]), files[k].path);
  }

  /** The error counts of the first `n` entries add up to where file `n`'s errors start. */
  lemma {:induction false} SumOfEntriesUpTo(files: seq<FileEntry>, n: nat)
    requires AllWellFormed(files) && n <= |files|
    ensures SumErrorCounts(Entries(files)[..n]) == Offset(files, n)
    decreases n
  {
    var es := Entries(files);
    if n == 0 {
      assert PerFile(files[..0]) == [];
    } else {
      SumOfEntriesUpTo(files, n - 1);
      assert es[..n][..n - 1] == es[..n - 1];
      assert SumErrorCounts(es[..n]) == SumErrorCounts(es[..n - 1]) + es[n - 1].report.errorCount;
      ErrorCountOfWellFormed(files, n - 1);
      assert es[n - 1].report.errorCount == |FileErrors(files[n - 1])|;
      FileSlice(files, n - 1);
    }
  }

  /** With every message well formed, the error counts of the entries add up to the length of the flat list. */
  lemma SumOfEntries(files: seq<FileEntry>)
    requires AllWellFormed(files)
    ensures SumErrorCounts(Entries(files)) == |ExtractErrors(files)|
  {
    SumOfEntriesUpTo(files, |files|);
    assert Entries(files)[..|files|] == Entries(files);
    assert files[..|files|] == files;
  }

  /**
   * When every message is well formed and no two paths collide, the
   * breakdown partitions the flat list: row `i` holds exactly the slice of
   * file `i`, its `error_count` is that slice's length, and the counts add up
   * to the length of the flat list.
   */
  lemma BreakdownPartitionsErrors(files: seq<FileEntry>)
    requires NoCollisions(files) && AllWellFormed(files)
    ensures |Breakdown(files)| == |files|
    ensures forall i :: 0 <= i < |files| ==>
      && SliceOf(files, i, Breakdown(files)[i].report.messages)
      && Breakdown(files)[i].report.errorCount == Offset(files, i + 1) - Offset(files, i)
    ensures SumErrorCounts(Breakdown(files)) == |ExtractErrors(files)|
  {
    BreakdownWithoutCollisions(files);
    var rows := Breakdown(files);
    forall i | 0 <= i < |files|
      ensures SliceOf(files, i, rows[i].report.messages)
      ensures rows[i].report.errorCount == Offset(files, i + 1) - Offset(files, i)
    {
      assert rows[i].report == ReportOf(files[i]);
      FileSlice(files, i);
      ErrorCountOfWellFormed(files, i);
    }
    SumOfEntries(files);
  }
}

=== FILE: human_text.dfy ===
/**
 * Reading the one-line human summary back: the counts it prints can be
 * recovered from it, the singular words appear exactly for a count of one, and
 * the closing icon and words depend on the status alone.
 */
module HumanText {
  import opened Base
  import opened Strings
  import opened NumericStrings
  import opened ResponseMapper

  const Lead := "PHPStan Analysis: "

  predicate NoSpace(s: string) { forall i :: 0 <= i < |s| ==> s[i] != ' ' }

  /** Index of the first space of `s`, or |s| when there is none. */
  function FirstSpace(s: string): (n: nat)
    ensures n <= |s| && NoSpace(s[..n])
    ensures n < |s| ==> s[n] == ' '
    decreases |s|
  {
    if |s| == 0 || s[0] == ' ' then 0
    else
      var n := 1 + FirstSpace(s[1..]);
      assert s[..n] == [s[0]] + s[1..][..n - 1];
      n
  }

  lemma FirstSpaceUnique(s: string, k: nat)
    requires k < |s| && NoSpace(s[..k]) && s[k] == ' '
    ensures FirstSpace(s) == k
  {
  }

  /** The word before the first space, and what follows that space. */
  function SplitAtSpace(s: string): (string, string) {
    var n := FirstSpace(s);
    if n < |s| then (s[..n], s[n + 1..]) else (s, "")
  }

  lemma SplitWord(a: string, b: string)
    requires NoSpace(a)
    ensures SplitAtSpace(a + " " + b) == (a, b)
  {
    var s := a + " " + b;
    assert s[..|a|] == a;
    FirstSpaceUnique(s, |a|);
    assert s[|a| + 1..] == b;
  }

  /** The first `n` space-separated words of `s`. */
  function ReadWords(s: string, n: nat): (ws: seq<string>)
    ensures |ws| == n
    decreases n
  {
    if n == 0 then [] else var (w, r) := SplitAtSpace(s); [w] + ReadWords(r, n - 1)
  }

  /** Reading words back inverts writing them, when no word holds a space. */
  lemma {:induction false} ReadWordsOfPhrase(words: seq<string>, rest: string)
    requires forall i :: 0 <= i < |words| ==> NoSpace(words[i])
    ensures ReadWords(Phrase(words, rest), |words|) == words
    decreases |words|
  {
    if |words| > 0 {
      SplitWord(words[0], Phrase(words[1..], rest));
      ReadWordsOfPhrase(words[1..], rest);
      assert [words[0]] + words[1..] == words;
    }
  }

  /** The words of a phrase, each followed by a space. */
  function Spaced(words: seq<string>): string {
    if |words| == 0 then "" else words[0] + " " + Spaced(words[1..])
  }

  lemma {:induction false} PhraseIsSpacedWords(words: seq<string>, rest: string)
    ensures Phrase(words, rest) == Spaced(words) + rest
    decreases |words|
  {
    if |words| > 0 {
      PhraseIsSpacedWords(words[1..], rest);
    }
  }

  lemma IntToStringHasNoSpace(i: int)
    ensures NoSpace(IntToString(i))
  {
  }

  /** The integer a word spells, if it is numeric. */
  function IntOf(word: string): Option<int> {
    var p := ParseNumeric(word);
    if p.Some? then Some(TruncateNumeric(p.value)) else None
  }

  /**
   * What the summary line says: whether the error count is spelled "No", the
   * error count and the word after it, the file count and the word after it.
   */
  datatype Reading = Reading(spelledNo: bool, errors: int, errorWord: string, files: int, fileWord: string)

  /**
   * Read the six words: "No" in place of the error count means zero; the
   * third and fourth words must be "found in".
   */
  function ReadWordsOfLine(ws: seq<string>): Option<Reading>
    requires |ws| == 6
  {
    var errors := if ws[0] == "No" then Some(0) else IntOf(ws[0]);
    var files := IntOf(ws[4]);
    if ws[2] != "found" || ws[3] != "in" || errors.None? || files.None? then None
    else Some(Reading(ws[0] == "No", errors.value, ws[1], files.value, ws[5]))
  }

  /** Read the line word by word after the lead. */
  function ReadSummaryLine(text: string): Option<Reading> {
    if !(Lead <= text) then None else ReadWordsOfLine(ReadWords(text[|Lead|..], 6))
  }

  lemma IntOfIntString(i: int)
    ensures IntOf(IntToString(i)) == Some(i)
  {
    IntStringRoundTrip(i);
  }

  /** A printed count never reads "No", so the zero form cannot be confused with a number. */
  lemma IntStringIsNotNo(i: int)
    ensures IntToString(i) != "No"
  {
    var t := IntToString(i);
    assert t[0] == '-' || IsDigit(t[0]);
  }

  /** The line starts with the lead, and the six words after it are the summary's words. */
  lemma SummaryLineWordsRead(s: Summary)
    ensures Lead <= HumanReadableSummary(s)
    ensures ReadWords(HumanReadableSummary(s)[|Lead|..], 6) == SummaryWords(s)
  {
    var words := SummaryWords(s);
    assert HumanReadableSummary(s)[|Lead|..] == Phrase(words, SummaryClosing(s));
    IntToStringHasNoSpace(s.totalErrors);
    IntToStringHasNoSpace(s.filesAnalyzed);
    ReadWordsOfPhrase(words, SummaryClosing(s));
  }

  /** The reading a summary's own words give. */
  function Expected(s: Summary): Reading {
    Reading(
      s.totalErrors == 0,
      s.totalErrors,
      if s.totalErrors == 1 then "error" else "errors",
      s.filesAnalyzed,
      if s.totalErrors == 0 then "file(s)" else if s.filesAnalyzed == 1 then "file" else "files")
  }

  lemma ReadSummaryWords(s: Summary)
    ensures ReadWordsOfLine(SummaryWords(s)) == Some(Expected(s))
  {
    IntOfIntString(s.filesAnalyzed);
    if s.totalErrors != 0 {
      IntOfIntString(s.totalErrors);
      IntStringIsNotNo(s.totalErrors);
    }
  }

  /**
   * Reading the line back gives the summary's counts; the words after them
   * are singular exactly when the count is one (and the zero form says
   * "No errors" and "file(s)").
   */
  lemma ReadBackSummaryLine(s: Summary)
    ensures ReadSummaryLine(HumanReadableSummary(s)) == Some(Expected(s))
  {
    SummaryLineWordsRead(s);
    ReadSummaryWords(s);
  }

  lemma EndsWithJoin(x: string, y: string)
    ensures EndsWith(x + y, y)
  {
    assert (x + y)[|x|..] == y;
  }

  /** The two closings have the same length and differ, so a line cannot end with both. */
  lemma StatusesDiffer(text: string)
    ensures |PassedStatus| == |FailedStatus|
    ensures !(EndsWith(text, PassedStatus) && EndsWith(text, FailedStatus))
  {
    assert PassedStatus[0] != FailedStatus[0];
  }

  /** The line ends with the passed icon and words exactly when the status is "passed", and with the failed ones otherwise. */
  lemma SummaryLineStatus(s: Summary)
    ensures EndsWith(HumanReadableSummary(s), PassedStatus) <==> s.status == "passed"
    ensures s.status != "passed" ==> EndsWith(HumanReadableSummary(s), FailedStatus)
  {
    var text := HumanReadableSummary(s);
    var words := SummaryWords(s);
    var status := if s.status == "passed" then PassedStatus else FailedStatus;
    var head := "(Level " + s.level + ") ";
    PhraseIsSpacedWords(words, head + status);
    assert text == (Lead + Spaced(words) + head) + status;
    EndsWithJoin(Lead + Spaced(words) + head, status);
    StatusesDiffer(text);
  }

  /** The line closes with the summary's level in parentheses, then the icon and words of its status. */
  lemma SummaryLineLevel(s: Summary)
    ensures EndsWith(HumanReadableSummary(s),
      "(Level " + s.level + ") " + if s.status == "passed" then PassedStatus else FailedStatus)
  {
    var words := SummaryWords(s);
    var closing := "(Level " + s.level + ") " + if s.status == "passed" then PassedStatus else FailedStatus;
    PhraseIsSpacedWords(words, closing);
    assert HumanReadableSummary(s) == (Lead + Spaced(words)) + closing;
    EndsWithJoin(Lead + Spaced(words), closing);
  }

  /**
   * The response's text agrees with its structured parts: it reads back as the
   * totals' error count and the number of file entries, and it closes with the
   * passed icon exactly when there are no errors.
   */
  lemma ResponseTextAgrees(out: PhpStanOutput.Output, level: string)
    ensures var r := MapToMcpResponse(out, level);
      var reading := ReadSummaryLine(r.text);
      && reading.Some?
      && reading.value.errors == TotalsOf(out.totals).errors
      && reading.value.files == |out.files|
      && (EndsWith(r.text, PassedStatus) <==> TotalsOf(out.totals).errors == 0)
  {
    var r := MapToMcpResponse(out, level);
    ReadBackSummaryLine(r.summary);
    SummaryLineStatus(r.summary);
  }
}

=== FILE: mapper.dfy ===
/**
 * `ResponseMapper`: turns a decoded PHPStan result into the tool response
 * (a one-line text, a summary, the flat error list and the per-file
 * breakdown), or wraps a failure into the error envelope.
 */
module ResponseMapper {
  import opened Base
  import opened Strings
  import opened PhpValues
  import opened PhpStanOutput
  import opened Severity
  import opened Paths
  import opened Sequences

  /** One message in the shape the report exposes it. */
  datatype NormalizedError = NormalizedError(
    file: string,
    line: int,
    message: Value,
    rule: Value,
    severity: Severity,
    location: string,
    ignorable: bool)

  /**
   * `mapError`: the message text and the identifier are echoed as they were
   * decoded (with "Unknown error" and "unknown" for missing or null ones), the
   * line is coerced to an `int`, and the location joins the cleaned path and
   * the line with ':'.
   */
  function MapError(m: MessageFields, path: string): (e: NormalizedError)
    ensures e.file == CleanFilePath(path)
    ensures e.location == e.file + ":" + IntToString(e.line)
  {
    var file := CleanFilePath(path);
    var line := LineNumber(m.line);
    NormalizedError(
      file,
      line,
      Coalesce(m.message, Str("Unknown error")),
      Coalesce(m.identifier, Str("unknown")),
      MapSeverity(m),
      file + ":" + IntToString(line),
      IsIgnorable(m))
  }

  /**
   * The other fields of `mapError`: a present, non-null message text or
   * identifier is echoed, a missing or null one takes its default; the line,
   * severity and ignorable flag are the coercions of their own fields.
   */
  lemma MapErrorFields(m: MessageFields, path: string)
    ensures var e := MapError(m, path);
      && e.line == LineNumber(m.line)
      && (m.message.Some? && m.message.value != Null ==> e.message == m.message.value)
      && (m.message.None? || m.message.value == Null ==> e.message == Str("Unknown error"))
      && (m.identifier.Some? && m.identifier.value != Null ==> e.rule == m.identifier.value)
      && (m.identifier.None? || m.identifier.value == Null ==> e.rule == Str("unknown"))
      && e.severity == MapSeverity(m) && e.ignorable == IsIgnorable(m)
  {
  }

  /** The message list of a file entry, or nothing when it has none usable. */
  function MessagesOf(f: FileEntry): seq<RawMessage> {
    if f.data.messages.Some? then f.data.messages.value else []
  }

  /** One entry of a message list: an array is mapped, anything else is skipped. */
  function MapOne(m: RawMessage, path: string): (r: seq<NormalizedError>)
    ensures |r| <= 1
  {
    if m.Message? then [MapError(m.fields, path)] else []
  }

  /** The mapping of each entry of a message list, entry by entry. */
  function MessageParts(ms: seq<RawMessage>, path: string): (parts: seq<seq<NormalizedError>>)
    ensures |parts| == |ms| && forall j :: 0 <= j < |ms| ==> parts[j] == MapOne(ms[j], path)
  {
    MapEach(ms, EntryMapper(path))
  }

  /** `MapOne` for one file's path, as a function value. */
  function EntryMapper(path: string): RawMessage -> seq<NormalizedError> {
    m => MapOne(m, path)
  }

  /** The mapped messages of one list, in list order, skipping entries that are not arrays. */
  function MapMessages(ms: seq<RawMessage>, path: string): seq<NormalizedError> {
    Concat(MessageParts(ms, path))
  }

  function FileErrors(f: FileEntry): seq<NormalizedError> {
    MapMessages(MessagesOf(f), f.path)
  }

  /** Mapping a message list never yields more errors than there are entries. */
  lemma MapMessagesLength(ms: seq<RawMessage>, path: string)
    ensures |MapMessages(ms, path)| <= |ms|
  {
    ConcatShort(MessageParts(ms, path));
  }

  /** Extending a message list by one entry extends its mapping by that entry's mapping. */
  lemma MapMessagesStep(ms: seq<RawMessage>, j: nat, path: string)
    requires j < |ms|
    ensures MapMessages(ms[..j + 1], path) == MapMessages(ms[..j], path) + MapOne(ms[j], path)
  {
    assert ms[..j + 1] == ms[..j] + [ms[j]];
    MapEachJoin(ms[..j], [ms[j]], EntryMapper(path));
    ConcatAppend(MessageParts(ms[..j], path), MapOne(ms[j], path));
  }

  /** The mapped messages of each file, file by file. */
  function PerFile(files: seq<FileEntry>): (parts: seq<seq<NormalizedError>>)
    ensures |parts| == |files| && forall i :: 0 <= i < |files| ==> parts[i] == FileErrors(files[i])
  {
    MapEach(files, FileErrors)
  }

  /** `extractErrors`: the mapped messages of every file, in file order and then message order. */
  function ExtractErrors(files: seq<FileEntry>): seq<NormalizedError> {
    Concat(PerFile(files))
  }

  lemma PerFilePrefix(files: seq<FileEntry>, n: nat)
    requires n <= |files|
    ensures PerFile(files[..n]) == PerFile(files)[..n]
  {
    MapEachPrefix(files, n, FileErrors);
  }

  lemma ExtractErrorsStep(files: seq<FileEntry>, i: nat)
    requires i < |files|
    ensures ExtractErrors(files[..i + 1]) == ExtractErrors(files[..i]) + FileErrors(files[i])
  {
    assert files[..i + 1] == files[..i] + [files[i]];
    MapEachJoin(files[..i], [files[i]], FileErrors);
    ConcatAppend(PerFile(files[..i]), FileErrors(files[i]));
  }

  /** The inner `foreach` of `extractErrors`: map each array message of one file, skip the rest. */
  method MapMessagesLoop(ms: seq<RawMessage>, path: string) returns (mapped: seq<NormalizedError>)
    ensures mapped == MapMessages(ms, path)
  {
    mapped := [];
    var j := 0;
    while j < |ms|
      invariant 0 <= j <= |ms|
      invariant mapped == MapMessages(ms[..j], path)
    {
      MapMessagesStep(ms, j, path);
      if ms[j].Message? {
        mapped := mapped + [MapError(ms[j].fields, path)];
      }
      j := j + 1;
    }
    assert ms[..j] == ms;
  }

  /** The outer `foreach` of `extractErrors`, over the files in order. */
  method ExtractErrorsLoop(out: Output) returns (errors: seq<NormalizedError>)
    ensures errors == ExtractErrors(out.files)
  {
    errors := [];
    var files := out.files;
    var i := 0;
    while i < |files|
      invariant 0 <= i <= |files|
      invariant errors == ExtractErrors(files[..i])
    {
      var mapped := MapMessagesLoop(MessagesOf(files[i]), files[i].path);
      ExtractErrorsStep(files, i);
      errors := errors + mapped;
      i := i + 1;
    }
    assert files[..i] == files;
  }

  /** One value of the per-file breakdown. */
  datatype FileReport = FileReport(errorCount: nat, messages: seq<NormalizedError>)

  /** One entry of the breakdown, an ordered PHP array keyed by cleaned path. */
  datatype FileRow = FileRow(key: string, report: FileReport)

  /** The breakdown value of one file: its raw message count and its mapped messages. */
  function ReportOf(f: FileEntry): FileReport {
    FileReport(|MessagesOf(f)|, FileErrors(f))
  }

  predicate KeysDistinct(rows: seq<FileRow>) {
    forall i, j :: 0 <= i < j < |rows| ==> rows[i].key != rows[j].key
  }

  predicate HasKey(rows: seq<FileRow>, key: string) {
    exists i :: 0 <= i < |rows| && rows[i].key == key
  }

  /** Position of `key` among the rows, if present. */
  function IndexOfKey(rows: seq<FileRow>, key: string): (r: Option<nat>)
    ensures r.Some? ==> r.value < |rows| && rows[r.value].key == key
    ensures r.None? ==> !HasKey(rows, key)
    ensures r.Some? && KeysDistinct(rows) ==> forall i :: 0 <= i < |rows| && rows[i].key == key ==> i == r.value
  {
    if |rows| == 0 then None
    else if rows[|rows| - 1].key == key then
      var r := IndexOfKey(rows[..|rows| - 1], key);
      if r.Some? then Some(r.value) else Some(|rows| - 1)
    else
      var r := IndexOfKey(rows[..|rows| - 1], key);
      if r.Some? then Some(r.value) else None
  }

  function Lookup(rows: seq<FileRow>, key: string): (r: Option<FileReport>)
    ensures r.Some? <==> HasKey(rows, key)
  {
    var i := IndexOfKey(rows, key);
    if i.Some? then Some(rows[i.value].report) else None
  }

  /**
   * `$result[$key] = $value` on an ordered PHP array: an existing key keeps its
   * position and gets the new value; a new key is appended.
   */
  function Put(rows: seq<FileRow>, key: string, value: FileReport): (r: seq<FileRow>)
    requires KeysDistinct(rows)
    ensures KeysDistinct(r)
  {
    var idx := IndexOfKey(rows, key);
    if idx.Some? then rows[idx.value := FileRow(key, value)] else rows + [FileRow(key, value)]
  }

  /** After a put, the key holds the new value. */
  lemma PutLookupSame(rows: seq<FileRow>, key: string, value: FileReport)
    requires KeysDistinct(rows)
    ensures Lookup(Put(rows, key, value), key) == Some(value)
  {
    var r := Put(rows, key, value);
    var idx := IndexOfKey(rows, key);
    assert r[if idx.Some? then idx.value else |rows|].key == key;
  }

  /** A put leaves every other key's value alone. */
  lemma PutLookupOther(rows: seq<FileRow>, key: string, value: FileReport, k: string)
    requires KeysDistinct(rows) && k != key
    ensures Lookup(Put(rows, key, value), k) == Lookup(rows, k)
  {
    var r := Put(rows, key, value);
    var a := IndexOfKey(r, k);
    var b := IndexOfKey(rows, k);
    if b.Some? {
      assert r[b.value].key == k;
    }
    if a.Some? {
      assert rows[a.value].key == k;
    }
  }

  /** A put adds its key and no other. */
  lemma PutKeys(rows: seq<FileRow>, key: string, value: FileReport, k: string)
    requires KeysDistinct(rows)
    ensures HasKey(Put(rows, key, value), k) <==> HasKey(rows, k) || k == key
  {
    var r := Put(rows, key, value);
    PutLookupSame(rows, key, value);
    if HasKey(rows, k) {
      var i :| 0 <= i < |rows| && rows[i].key == k;
      assert r[i].key == k;
    }
    if HasKey(r, k) {
      var i :| 0 <= i < |r| && r[i].key == k;
      if i < |rows| {
        assert rows[i].key == k;
      }
    }
  }

  /** Overwriting a key already present keeps every row where it was: no row moves, none is added. */
  lemma PutExistingKeepsPositions(rows: seq<FileRow>, key: string, value: FileReport)
    requires KeysDistinct(rows) && HasKey(rows, key)
    ensures var r := Put(rows, key, value);
      |r| == |rows| && forall i :: 0 <= i < |rows| ==> r[i].key == rows[i].key
  {
  }

  /** A new key is appended at the end. */
  lemma PutNewKey(rows: seq<FileRow>, key: string, value: FileReport)
    requires KeysDistinct(rows) && !HasKey(rows, key)
    ensures Put(rows, key, value) == rows + [FileRow(key, value)]
  {
  }

  /** The row a file entry produces: its report under its cleaned path. */
  function Entry(f: FileEntry): FileRow {
    FileRow(CleanFilePath(f.path), ReportOf(f))
  }

  function Entries(files: seq<FileEntry>): (rs: seq<FileRow>)
    ensures |rs| == |files| && forall i :: 0 <= i < |files| ==> rs[i] == Entry(files[i])
  {
    seq(|files|, i requires 0 <= i < |files| => Entry(files[i]))
  }

  /** Successive puts of the given rows into an initially empty ordered array. */
  function PutAll(entries: seq<FileRow>): (rows: seq<FileRow>)
    ensures KeysDistinct(rows)
    ensures |rows| <= |entries|
  {
    if |entries| == 0 then []
    else
      var last := entries[|entries| - 1];
      Put(PutAll(entries[..|entries| - 1]), last.key, last.report)
  }

  /** `generateFileBreakdown` as a fold: each file entry is put under its cleaned path. */
  function Breakdown(files: seq<FileEntry>): (rows: seq<FileRow>)
    ensures KeysDistinct(rows)
  {
    PutAll(Entries(files))
  }

  lemma BreakdownStep(files: seq<FileEntry>, i: nat)
    requires i < |files|
    ensures Breakdown(files[..i + 1]) == Put(Breakdown(files[..i]), CleanFilePath(files[i].path), ReportOf(files[i]))
  {
    assert Entries(files[..i + 1])[..i] == Entries(files[..i]);
  }

  /**
   * The body of the `foreach` of `generateFileBreakdown` for one file: count
   * the raw entries of its message list and map the well-formed ones.
   */
  method ReportFile(f: FileEntry) returns (report: FileReport)
    ensures report == ReportOf(f)
  {
    var errorCount := 0;
    var messages: seq<NormalizedError> := [];
    if f.data.messages.Some? {
      var ms := f.data.messages.value;
      errorCount := |ms|;
      messages := MapMessagesLoop(ms, f.path);
    }
    report := FileReport(errorCount, messages);
  }

  /** The outer `foreach` of `generateFileBreakdown`: store each file's report under its cleaned path. */
  method GenerateFileBreakdown(out: Output) returns (rows: seq<FileRow>)
    ensures rows == Breakdown(out.files)
  {
    rows := [];
    var files := out.files;
    var i := 0;
    while i < |files|
      invariant 0 <= i <= |files|
      invariant rows == Breakdown(files[..i])
    {
      var report := ReportFile(files[i]);
      BreakdownStep(files, i);
      rows := Put(rows, CleanFilePath(files[i].path), report);
      i := i + 1;
    }
    assert files[..i] == files;
  }

  /** `generateSummary`'s result. */
  datatype Summary = Summary(
    totalErrors: int,
    totalWarnings: int,
    filesAnalyzed: nat,
    filesWithErrors: int,
    level: string,
    successRate: string,
    status: string)

  /**
   * The counts of the `totals` entry, whichever way it is held; a missing one
   * counts as zero.
   */
  function TotalsOf(t: TotalsEntry): Totals {
    match t
    case NoTotals => Totals(0, 0)
    case ArrayTotals(c) => c
    case ObjectTotals(c) => c
  }

  /**
   * `generateSummary`: the totals are copied from `totals`, the file count is
   * the number of file entries, and the status is a binary function of the
   * error total.
   */
  function GenerateSummary(out: Output, level: string): (s: Summary)
    ensures s.totalErrors == TotalsOf(out.totals).errors && s.filesWithErrors == TotalsOf(out.totals).fileErrors
    ensures s.filesAnalyzed == |out.files| && s.level == level && s.totalWarnings == 0
    ensures s.status == "passed" <==> s.totalErrors == 0
    ensures s.status != "passed" ==> s.status == "failed"
    ensures s.successRate == (if s.status == "passed" then "100%" else "0%")
  {
    SummaryFromTotals(TotalsOf(out.totals), |out.files|, level)
  }

  function SummaryFromTotals(t: Totals, filesAnalyzed: nat, level: string): Summary {
    var passed := t.errors == 0;
    Summary(
      t.errors,
      0,
      filesAnalyzed,
      t.fileErrors,
      level,
      if passed then "100%" else "0%",
      if passed then "passed" else "failed")
  }

  const PassedIcon := "✅"
  const FailedIcon := "❌"

  /** The closing icon and words of the human summary. */
  const PassedStatus := PassedIcon + " Analysis passed"
  const FailedStatus := FailedIcon + " Analysis failed"

  /** Words separated by single spaces, followed by one more space and `rest`. */
  function Phrase(words: seq<string>, rest: string): string {
    if |words| == 0 then rest else words[0] + " " + Phrase(words[1..], rest)
  }

  /**
   * The six words of the summary line before the level: the error count,
   * "error(s)", "found in", the file count and "file(s)". With no errors the
   * count reads "No" and the words are "errors" and "file(s)"; otherwise
   * "error" and "file" are used for a count of one and "errors" and "files"
   * for any other count.
   */
  function SummaryWords(s: Summary): seq<string> {
    var countWord := if s.totalErrors == 0 then "No" else IntToString(s.totalErrors);
    var errorWord := if s.totalErrors == 1 then "error" else "errors";
    var fileWord := if s.totalErrors == 0 then "file(s)" else if s.filesAnalyzed == 1 then "file" else "files";
    [countWord, errorWord, "found", "in", IntToString(s.filesAnalyzed), fileWord]
  }

  /** The level in parentheses, then the icon and words of the status. */
  function SummaryClosing(s: Summary): string {
    "(Level " + s.level + ") " + if s.status == "passed" then PassedStatus else FailedStatus
  }

  /**
   * `generateHumanReadableSummary`: one line,
   * "PHPStan Analysis: <count> <error word> found in <files> <file word> (Level <level>) <icon> <status text>".
   */
  function HumanReadableSummary(s: Summary): string {
    "PHPStan Analysis: " + Phrase(SummaryWords(s), SummaryClosing(s))
  }

  /** The tool response: the human-readable line and the three structured parts. */
  datatype Report = Report(text: string, summary: Summary, errors: seq<NormalizedError>, files: seq<FileRow>)

  /** `mapToMcpResponse`. */
  function MapToMcpResponse(out: Output, level: string): (r: Report)
    ensures r.summary == GenerateSummary(out, level)
    ensures r.text == HumanReadableSummary(r.summary)
    ensures r.errors == ExtractErrors(out.files) && r.files == Breakdown(out.files)
  {
    var summary := GenerateSummary(out, level);
    Report(HumanReadableSummary(summary), summary, ExtractErrors(out.files), Breakdown(out.files))
  }

  /** JSON-RPC "internal error", the code used when the caller gives none. */
  const InternalErrorCode := -32603

  /** The error envelope. */
  datatype ErrorResponse = ErrorResponse(text: string, code: int, message: string)

  const FailurePrefix := "PHPStan Analysis Failed: "
  const FailureSuffix := " " + FailedIcon

  /** `createErrorResponse`: the text frames the message; code and message are echoed. */
  function CreateErrorResponse(message: string, code: int): (r: ErrorResponse)
    ensures r.code == code && r.message == message
    ensures FailurePrefix <= r.text && EndsWith(r.text, FailureSuffix)
    ensures |r.text| == |FailurePrefix| + |message| + |FailureSuffix|
    ensures r.text[|FailurePrefix|..|r.text| - |FailureSuffix|] == message
  {
    ErrorResponse(FailurePrefix + message + FailureSuffix, code, message)
  }

  /** `createErrorResponse` with its default code. */
  function CreateDefaultErrorResponse(message: string): (r: ErrorResponse)
    ensures r.code == InternalErrorCode && r.message == message
  {
    CreateErrorResponse(message, InternalErrorCode)
  }

  /** The message framed by an error text, if the text has the error frame. */
  function MessageOfErrorText(text: string): Option<string> {
    if |text| >= |FailurePrefix| + |FailureSuffix| && FailurePrefix <= text && EndsWith(text, FailureSuffix)
    then Some(text[|FailurePrefix|..|text| - |FailureSuffix|])
    else None
  }

  /** The error text is exactly the frame around the message: the message can be read back from it. */
  lemma ErrorTextRoundTrip(message: string, code: int)
    ensures MessageOfErrorText(CreateErrorResponse(message, code).text) == Some(message)
  {
    var t := FailurePrefix + message + FailureSuffix;
    assert t[|t| - |FailureSuffix|..] == FailureSuffix;
    assert t[|FailurePrefix|..|t| - |FailureSuffix|] == message;
  }
}

=== FILE: numeric.dfy ===
/**
 * PHP 8 numeric strings, as `is_numeric` accepts them and `(int)` converts
 * them: optional surrounding whitespace, an optional sign, a decimal mantissa
 * with an optional fraction, and an optional exponent.
 */
module NumericStrings {
  import opened Base
  import opened Strings

  /** The whitespace PHP allows around a numeric string: space, \t, \n, \r, \v and \f. */
  predicate IsNumericSpace(c: char) {
    c == ' ' || c == '\t' || c == '\n' || c == '\r' || c as int == 11 || c as int == 12
  }

  predicate AllSpace(s: string) { forall i :: 0 <= i < |s| ==> IsNumericSpace(s[i]) }

  /** Length of the longest prefix of `s` made of whitespace. */
  function SpaceRun(s: string): (n: nat)
    ensures n <= |s| && AllSpace(s[..n])
    ensures n < |s| ==> !IsNumericSpace(s[n])
    decreases |s|
  {
    if |s| > 0 && IsNumericSpace(s[0]) then
      var n := 1 + SpaceRun(s[1..]);
      assert s[..n] == [s[0]] + s[1..][..n - 1];
      n
    else 0
  }

  /** Length of the longest prefix of `s` made of decimal digits. */
  function DigitRun(s: string): (n: nat)
    ensures n <= |s| && AllDigits(s[..n])
    ensures n < |s| ==> !IsDigit(s[n])
    decreases |s|
  {
    if |s| > 0 && IsDigit(s[0]) then
      var n := 1 + DigitRun(s[1..]);
      assert s[..n] == [s[0]] + s[1..][..n - 1];
      n
    else 0
  }

  /** A digit prefix ended by a non-digit (or by the end) is the digit run. */
  lemma {:induction false} DigitRunUnique(s: string, n: nat)
    requires n <= |s| && AllDigits(s[..n])
    requires n < |s| ==> !IsDigit(s[n])
    ensures DigitRun(s) == n
    decreases n
  {
    if n > 0 {
      assert IsDigit(s[..n][0]);
      var t := s[1..];
      assert t[..n - 1] == s[..n][1..];
      DigitRunUnique(t, n - 1);
    }
  }

  /**
   * A numeric string, decomposed: `whole` and `fraction` are the digits before
   * and after the decimal point (at least one of them non-empty), `exponent`
   * the signed value of the exponent part (0 when absent).
   */
  datatype Numeric = Numeric(negative: bool, whole: string, fraction: string, exponent: int)

  predicate WellFormedNumeric(n: Numeric) {
    AllDigits(n.whole) && AllDigits(n.fraction) && |n.whole| + |n.fraction| > 0
  }

  /**
   * The exponent part at the front of `t`: 'e' or 'E', an optional sign and at
   * least one digit. Without a complete exponent nothing is consumed.
   */
  function ExponentPart(t: string): (r: (int, string))
    ensures |r.1| <= |t|
    ensures r.1 == t[|t| - |r.1|..]
  {
    if |t| > 0 && (t[0] == 'e' || t[0] == 'E') then
      var u := t[1..];
      var neg := |u| > 0 && u[0] == '-';
      var v := if |u| > 0 && (u[0] == '-' || u[0] == '+') then u[1..] else u;
      var k := DigitRun(v);
      if k == 0 then (0, t)
      else
        var e: int := DigitsValue(v[..k]);
        (if neg then -e else e, v[k..])
    else (0, t)
  }

  /** PHP `is_numeric` on a string, returning the decomposition when it holds. */
  function ParseNumeric(s: string): (r: Option<Numeric>)
    ensures r.Some? ==> WellFormedNumeric(r.value)
  {
    var t := s[SpaceRun(s)..];
    var neg := |t| > 0 && t[0] == '-';
    var t1 := if |t| > 0 && (t[0] == '-' || t[0] == '+') then t[1..] else t;
    var w := DigitRun(t1);
    var t2 := t1[w..];
    var hasDot := |t2| > 0 && t2[0] == '.';
    var f := if hasDot then DigitRun(t2[1..]) else 0;
    var t3 := if hasDot then t2[1 + f..] else t2;
    assert hasDot ==> t2[1..1 + f] == t2[1..][..f];
    if w + f == 0 then None
    else
      var (e, rest) := ExponentPart(t3);
      if AllSpace(rest) then Some(Numeric(neg, t1[..w], if hasDot then t2[1..1 + f] else "", e))
      else None
  }

  function Pow10(k: nat): (p: nat)
    ensures p >= 1
  {
    if k == 0 then 1 else 10 * Pow10(k - 1)
  }

  /** Magnitude of the exact value of `mant` * 10^(-scale). */
  function ExactMagnitude(mant: nat, scale: int): real {
    if scale <= 0 then mant as real * Pow10(-scale) as real else mant as real / Pow10(scale) as real
  }

  /** The same magnitude truncated toward zero, in integer arithmetic. */
  function TruncatedMagnitude(mant: nat, scale: int): (m: nat)
    ensures m as real <= ExactMagnitude(mant, scale) < m as real + 1.0
  {
    if scale <= 0 then
      ScaleUp(mant, -scale);
      mant * Pow10(-scale)
    else
      ScaleDown(mant, scale);
      mant / Pow10(scale)
  }

  /** The exact value of a numeric string, as a rational. */
  function ExactValue(n: Numeric): real
    requires WellFormedNumeric(n)
  {
    var mag := ExactMagnitude(DigitsValue(n.whole + n.fraction), |n.fraction| - n.exponent);
    if n.negative then -mag else mag
  }

  /**
   * PHP `(int)` of a numeric string: its value truncated toward zero, computed
   * in exact integer arithmetic.
   */
  function TruncateNumeric(n: Numeric): (i: int)
    requires WellFormedNumeric(n)
    ensures var x := ExactValue(n); if x >= 0.0 then i as real <= x < i as real + 1.0 else i as real - 1.0 < x <= i as real
  {
    var mag: int := TruncatedMagnitude(DigitsValue(n.whole + n.fraction), |n.fraction| - n.exponent);
    if n.negative then -mag else mag
  }

  lemma ScaleUp(mant: nat, k: nat)
    ensures (mant * Pow10(k)) as real == ExactMagnitude(mant, -(k as int))
  {
    var p := Pow10(k);
    assert (mant * p) as real == mant as real * p as real;
  }

  lemma ScaleDown(mant: nat, k: nat)
    requires k > 0
    ensures (mant / Pow10(k)) as real <= ExactMagnitude(mant, k) < (mant / Pow10(k)) as real + 1.0
  {
    DivBounds(mant, Pow10(k));
  }

  /** Integer division of naturals is the floor of the rational quotient. */
  lemma DivBounds(m: nat, p: nat)
    requires p >= 1
    ensures (m / p) as real <= m as real / p as real < (m / p) as real + 1.0
  {
    var q := m / p;
    var r := m % p;
    var P := p as real;
    assert m == q * p + r && 0 <= r < p;
    assert m as real == q as real * P + r as real;
    assert m as real / P == q as real + r as real / P;
    assert 0.0 <= r as real / P < 1.0;
  }

  /** A decimal `int` rendering is numeric and decomposes into its sign and digits. */
  lemma {:induction false} ParseIntString(i: int)
    ensures ParseNumeric(IntToString(i)) == Some(Numeric(i < 0, NatToDigits(if i < 0 then -i else i), "", 0))
  {
    var s := IntToString(i);
    var d := NatToDigits(if i < 0 then -i else i);
    assert !IsNumericSpace(s[0]);
    assert SpaceRun(s) == 0;
    assert s[0..] == s;
    var t1 := if i < 0 then s[1..] else s;
    assert t1 == d;
    DigitRunUnique(d, |d|);
    assert d[|d|..] == "";
    assert d[..|d|] == d;
  }

  /** `(int)` of the decimal rendering of `i` gives back `i`. */
  lemma IntStringRoundTrip(i: int)
    ensures ParseNumeric(IntToString(i)).Some?
    ensures TruncateNumeric(ParseNumeric(IntToString(i)).value) == i
  {
    ParseIntString(i);
    var d := NatToDigits(if i < 0 then -i else i);
    assert d + "" == d;
    DigitsRoundTrip(if i < 0 then -i else i);
  }
}

=== FILE: paths.dfy ===
/**
 * `cleanFilePath`: every path the report surfaces drops the container root
 * "/app/" and then its leading slashes.
 */
module Paths {
  import opened Strings

  const ContainerRoot := "/app/"

  /**
   * Delete the occurrences of "/app/" (one PHP `str_replace` pass), then every
   * leading '/'.
   */
  function CleanFilePath(path: string): (r: string)
    ensures |r| <= |path|
    ensures |r| > 0 ==> r[0] != '/'
  {
    TrimLeft(StripAll(path, ContainerRoot), '/')
  }

  /** A container-root prefix makes no difference to the cleaned path. */
  lemma CleanDropsContainerRoot(rest: string)
    ensures CleanFilePath(ContainerRoot + rest) == CleanFilePath(rest)
  {
    StripAllLeading(ContainerRoot, rest);
  }

  /** Nor does a leading '/' that does not begin "/app/". */
  lemma CleanDropsLeadingSlash(rest: string)
    requires !("app/" <= rest)
    ensures CleanFilePath("/" + rest) == CleanFilePath(rest)
  {
    assert !(ContainerRoot <= "/" + rest);
    StripAllKeepsHead('/', rest, ContainerRoot);
    assert ("/" + StripAll(rest, ContainerRoot))[1..] == StripAll(rest, ContainerRoot);
  }

  /** A relative path with no "/app/" in it is already clean. */
  lemma CleanKeepsRelativePath(path: string)
    requires !Contains(path, ContainerRoot)
    requires |path| == 0 || path[0] != '/'
    ensures CleanFilePath(path) == path
  {
    StripAllWithoutOccurrence(path, ContainerRoot);
  }

  /**
   * A clean relative path comes back both from its container form and from its
   * rooted form: "/app/src/Example.php" and "/src/Example.php" both give
   * "src/Example.php".
   */
  lemma CleanRootedForms(path: string)
    requires !Contains(path, ContainerRoot)
    requires |path| == 0 || path[0] != '/'
    requires !("app/" <= path)
    ensures CleanFilePath(ContainerRoot + path) == path
    ensures CleanFilePath("/" + path) == path
  {
    CleanKeepsRelativePath(path);
    CleanDropsContainerRoot(path);
    CleanDropsLeadingSlash(path);
  }
}

=== FILE: php_values.dfy ===
/**
 * The dynamically typed values a decoded PHPStan message field can hold, and
 * the PHP operators the mapper applies to them: `??`, `(bool)`, `is_int`,
 * `is_numeric` and `(int)`.
 */
module PhpValues {
  import opened Base
  import opened Strings
  import opened NumericStrings

  /**
   * A decoded JSON value as PHP sees it. JSON objects stay `stdClass`
   * instances (`Object`), JSON arrays become PHP lists (`List`).
   */
  datatype Value =
    | Null
    | Bool(b: bool)
    | Int(i: int)
    | Float(r: real)
    | Str(s: string)
    | List(items: seq<Value>)
    | Object(members: seq<(string, Value)>)

  /**
   * `$field ?? $default` on an array entry that may be missing: both a missing
   * entry and an explicit `null` give the default.
   */
  function Coalesce(field: Option<Value>, default: Value): (v: Value)
    ensures field.Some? && field.value != Null ==> v == field.value
    ensures field.None? || field.value == Null ==> v == default
  {
    match field
    case Some(x) => if x == Null then default else x
    case None => default
  }

  /** The values PHP converts to `false`; every other value converts to `true`. */
  const FalseValues: set<Value> := {Null, Bool(false), Int(0), Float(0.0), Str(""), Str("0"), List([])}

  /** PHP `(bool)`: null, false, 0, 0.0, "", "0" and the empty array are false; any object is true. */
  function ToBool(v: Value): bool {
    match v
    case Null => false
    case Bool(b) => b
    case Int(i) => i != 0
    case Float(r) => r != 0.0
    case Str(s) => s != "" && s != "0"
    case List(items) => |items| > 0
    case Object(_) => true
  }

  /** `(bool)` is false exactly on the listed values. */
  lemma ToBoolFalseValues(v: Value)
    ensures !ToBool(v) <==> v in FalseValues
  {
  }

  /** PHP `(int)` of a float: truncation toward zero. */
  function TruncateReal(x: real): (i: int)
    ensures x >= 0.0 ==> i as real <= x < i as real + 1.0
    ensures x < 0.0 ==> i as real - 1.0 < x <= i as real
  {
    if x >= 0.0 then x.Floor else -((-x).Floor)
  }

  /**
   * The `line` coercion of the mapper: an `int` is kept, any other numeric
   * value (a float or a numeric string) goes through `(int)`, and everything
   * else, a missing or null entry included, becomes 0.
   */
  function LineNumber(field: Option<Value>): int {
    match Coalesce(field, Int(0))
    case Int(i) => i
    case Float(x) => TruncateReal(x)
    case Str(s) => if ParseNumeric(s).Some? then TruncateNumeric(ParseNumeric(s).value) else 0
    case _ => 0
  }

  /**
   * Each kind of `line` value: an int is kept, a float is truncated toward
   * zero, a string goes through `(int)` when numeric and gives 0 otherwise, and
   * a missing, null, boolean or array value gives 0.
   */
  lemma LineNumberCases(field: Option<Value>)
    ensures var n := LineNumber(field);
      && (field.None? || field.value.Null? ==> n == 0)
      && (field.Some? && field.value.Int? ==> n == field.value.i)
      && (field.Some? && field.value.Float? && field.value.r >= 0.0 ==> n as real <= field.value.r < n as real + 1.0)
      && (field.Some? && field.value.Float? && field.value.r < 0.0 ==> n as real - 1.0 < field.value.r <= n as real)
      && (field.Some? && field.value.Str? && ParseNumeric(field.value.s).Some? ==>
            n == TruncateNumeric(ParseNumeric(field.value.s).value))
      && (field.Some? && field.value.Str? && ParseNumeric(field.value.s).None? ==> n == 0)
      && (field.Some? && (field.value.Bool? || field.value.List? || field.value.Object?) ==> n == 0)
  {
  }

  /** Numeric strings are converted the way `(int)` converts them, so a decimal rendering yields its number. */
  lemma LineNumberOfDecimalString(i: int)
    ensures LineNumber(Some(Str(IntToString(i)))) == i
  {
    IntStringRoundTrip(i);
  }

  /** A missing line and non-numeric values, whatever their type, give line 0. */
  lemma LineNumberOfNonNumeric(field: Option<Value>)
    requires field.Some? && field.value.Str? ==> ParseNumeric(field.value.s).None?
    requires field.Some? ==> !field.value.Int? && !field.value.Float?
    ensures LineNumber(field) == 0
  {
  }
}

=== FILE: phpstan_output.dfy ===
/**
 * The decoded PHPStan `--error-format=prettyJson` result, as the mapper
 * receives it. PHP array order matters, so the `files` object is an ordered
 * sequence of entries.
 */
module PhpStanOutput {
  import opened Base
  import opened PhpValues

  /** The fields of one message the mapper reads; each may be missing. */
  datatype MessageFields = MessageFields(
    message: Option<Value>,
    line: Option<Value>,
    identifier: Option<Value>,
    ignorable: Option<Value>)

  /**
   * One entry of a file's `messages` list. A JSON object or list is a
   * `Message` (a list has none of the named fields); anything else is skipped.
   */
  datatype RawMessage = Message(fields: MessageFields) | NotAnArray(value: Value)

  /**
   * One entry of `files`. `messages` is `None` when the entry is not an
   * object, or its `messages` field is missing, null or not a list.
   */
  datatype FileData = FileData(messages: Option<seq<RawMessage>>)

  datatype FileEntry = FileEntry(path: string, data: FileData)

  datatype Totals = Totals(errors: int, fileErrors: int)

  /**
   * How the top-level `totals` entry is held: missing (or not a collection),
   * a PHP array, or a decoded JSON object that was left as a `stdClass`.
   */
  datatype TotalsEntry = NoTotals | ArrayTotals(counts: Totals) | ObjectTotals(counts: Totals)

  /**
   * The result handed to the mapper. A `files` entry that is missing or not a
   * collection behaves exactly like an empty one, so it is the empty sequence.
   */
  datatype Output = Output(totals: TotalsEntry, files: seq<FileEntry>)
}

=== FILE: runner.dfy ===
/**
 * The runner's decisions over an abstract process: which command it runs,
 * how the process's outcome becomes either the analysis result or an error
 * message, and how the version probe reads its answer. Spawning the process
 * and decoding JSON are parameters: `run` maps an invocation to what the
 * process did, `decode` maps standard output to what `json_decode` produced.
 */
module PhpStanRunner {
  import opened Base
  import opened Strings
  import opened PhpStanOutput
  import opened ResponseMapper
  import opened VersionPattern
  import opened HumanText

  /** The binary to run and the time limit of an analysis, in seconds. */
  datatype Runner = Runner(binary: string, timeoutSeconds: int)

  /** The constructor's defaults. */
  const DefaultRunner := Runner("vendor/bin/phpstan", 300)

  /** An argument vector (run without a shell) and a time limit; `None` leaves the process library's default. */
  datatype Invocation = Invocation(argv: seq<string>, timeoutSeconds: Option<int>)

  /**
   * What running a process did: it threw (it could not start, or it timed
   * out) with a message, or it finished with an exit code — absent when the
   * process library reports none — and its two output streams.
   */
  datatype ProcessOutcome =
    | Threw(message: string)
    | Finished(exitCode: Option<int>, stdout: string, stderr: string)

  /** What `json_decode` made of the output: an object, another JSON value, or a decoding error with its message. */
  datatype Decoded =
    | DecodedObject(output: Output)
    | NotAnObject
    | Malformed(message: string)

  const ExecuteFailedPrefix := "Failed to execute PHPStan: "
  const ExecutionFailedPrefix := "PHPStan execution failed: "
  const InvalidFormatMessage := "Invalid PHPStan output format"

  /** The argument vector of an analysis: fixed flags, then the path as one separate, final argument. */
  function AnalyseCommand(r: Runner, path: string): (argv: seq<string>)
    ensures |argv| == 6 && argv[0] == r.binary && argv[5] == path
    ensures argv[1] == "analyse" && argv[2] == "--error-format=prettyJson" && argv[3] == "--level=max"
    ensures argv[4] == "--no-progress"
  {
    [r.binary, "analyse", "--error-format=prettyJson", "--level=max", "--no-progress", path]
  }

  /** A runner built with the constructor's defaults runs "vendor/bin/phpstan" with a limit of 300 seconds. */
  lemma DefaultRunnerInvocation(path: string)
    ensures var inv := AnalyseInvocation(DefaultRunner, path);
      inv.argv[0] == "vendor/bin/phpstan" && inv.argv[|inv.argv| - 1] == path && inv.timeoutSeconds == Some(300)
  {
  }

  /** The analysis invocation carries the runner's own time limit. */
  function AnalyseInvocation(r: Runner, path: string): Invocation {
    Invocation(AnalyseCommand(r, path), Some(r.timeoutSeconds))
  }

  /** Only an exit code above 2 is a failure of PHPStan itself; 1 means errors were found. */
  predicate Fatal(exitCode: Option<int>) {
    exitCode.Some? && exitCode.value > 2
  }

  /** PHP `empty` on a string: the empty string and "0". */
  predicate PhpEmpty(s: string) {
    s == "" || s == "0"
  }

  /** The result the runner synthesises when PHPStan printed nothing: zero totals and no files. */
  const EmptyOutput := Output(ArrayTotals(Totals(0, 0)), [])

  /** `parsePhpStanOutput`: only a decoded JSON object is accepted. */
  function ParseOutput(stdout: string, decode: string -> Decoded): (res: Result<Output, string>)
    ensures res.Success? <==> decode(stdout).DecodedObject?
    ensures res.Success? ==> res.value == decode(stdout).output
    ensures decode(stdout).NotAnObject? ==> res.error == InvalidFormatMessage
    ensures decode(stdout).Malformed? ==> res.error == decode(stdout).message
  {
    match decode(stdout)
    case DecodedObject(out) => Success(out)
    case NotAnObject => Failure(InvalidFormatMessage)
    case Malformed(m) => Failure(m)
  }

  /** `analyze`: run the command, reject a fatal exit, accept empty output as a clean run, parse anything else. */
  function Analyze(r: Runner, path: string, run: Invocation -> ProcessOutcome, decode: string -> Decoded): (res: Result<Output, string>)
    ensures var o := run(AnalyseInvocation(r, path));
      res.Success? <==> o.Finished? && !Fatal(o.exitCode) && (PhpEmpty(o.stdout) || decode(o.stdout).DecodedObject?)
    ensures var o := run(AnalyseInvocation(r, path));
      res.Success? ==> res.value == if PhpEmpty(o.stdout) then EmptyOutput else decode(o.stdout).output
  {
    match run(AnalyseInvocation(r, path))
    case Threw(m) => Failure(ExecuteFailedPrefix + m)
    case Finished(code, stdout, stderr) =>
      if Fatal(code) then Failure(ExecutionFailedPrefix + stderr)
      else if PhpEmpty(stdout) then Success(EmptyOutput)
      else ParseOutput(stdout, decode)
  }

  /** Each way the analysis can fail, and the message it fails with. */
  lemma AnalyzeFailures(r: Runner, path: string, run: Invocation -> ProcessOutcome, decode: string -> Decoded)
    ensures var o := run(AnalyseInvocation(r, path));
      o.Threw? ==> Analyze(r, path, run, decode) == Failure(ExecuteFailedPrefix + o.message)
    ensures var o := run(AnalyseInvocation(r, path));
      o.Finished? && Fatal(o.exitCode) ==> Analyze(r, path, run, decode) == Failure(ExecutionFailedPrefix + o.stderr)
    ensures var o := run(AnalyseInvocation(r, path));
      o.Finished? && !Fatal(o.exitCode) && !PhpEmpty(o.stdout) && decode(o.stdout).NotAnObject?
      ==> Analyze(r, path, run, decode) == Failure(InvalidFormatMessage)
    ensures var o := run(AnalyseInvocation(r, path));
      o.Finished? && !Fatal(o.exitCode) && !PhpEmpty(o.stdout) && decode(o.stdout).Malformed?
      ==> Analyze(r, path, run, decode) == Failure(decode(o.stdout).message)
  {
  }

  /**
   * Exit codes 1 and 2 report findings, not a failure of PHPStan: with
   * decodable output, the analysis succeeds exactly when the exit code is
   * absent or at most 2.
   */
  lemma ExitCodeDecides(r: Runner, path: string, run: Invocation -> ProcessOutcome, decode: string -> Decoded)
    requires var o := run(AnalyseInvocation(r, path));
      o.Finished? && !PhpEmpty(o.stdout) && decode(o.stdout).DecodedObject?
    ensures var o := run(AnalyseInvocation(r, path));
      Analyze(r, path, run, decode).Success? <==> o.exitCode.None? || o.exitCode.value <= 2
  {
  }

  /**
   * After a non-fatal exit, PHP's `empty` decides whether the output is
   * decoded: "" and "0" give the synthesised clean result whatever the
   * decoder would say, and any other output is decoded.
   */
  lemma EmptyOutputSkipsDecoding(r: Runner, path: string, run: Invocation -> ProcessOutcome, decode: string -> Decoded)
    requires var o := run(AnalyseInvocation(r, path));
      o.Finished? && (o.exitCode.None? || o.exitCode.value <= 2)
    ensures var o := run(AnalyseInvocation(r, path));
      o.stdout == "" || o.stdout == "0" ==> Analyze(r, path, run, decode) == Success(EmptyOutput)
    ensures var o := run(AnalyseInvocation(r, path));
      o.stdout != "" && o.stdout != "0" ==> Analyze(r, path, run, decode) == ParseOutput(o.stdout, decode)
  {
  }

  /** Unless the exit is fatal, what PHPStan wrote to standard error never matters. */
  lemma StderrOnlyMattersWhenFatal(r: Runner, path: string, run1: Invocation -> ProcessOutcome,
                                   run2: Invocation -> ProcessOutcome, decode: string -> Decoded)
    requires var o1, o2 := run1(AnalyseInvocation(r, path)), run2(AnalyseInvocation(r, path));
      o1.Finished? && o2.Finished? && o1.exitCode == o2.exitCode && o1.stdout == o2.stdout && !Fatal(o1.exitCode)
    ensures Analyze(r, path, run1, decode) == Analyze(r, path, run2, decode)
  {
  }

  /** After a fatal exit, neither standard output nor its decoding matters, and the error names standard error. */
  lemma FatalExitIgnoresOutput(r: Runner, path: string, run1: Invocation -> ProcessOutcome,
                               run2: Invocation -> ProcessOutcome, decode1: string -> Decoded, decode2: string -> Decoded)
    requires var o1, o2 := run1(AnalyseInvocation(r, path)), run2(AnalyseInvocation(r, path));
      o1.Finished? && o2.Finished? && Fatal(o1.exitCode) && Fatal(o2.exitCode) && o1.stderr == o2.stderr
    ensures Analyze(r, path, run1, decode1) == Analyze(r, path, run2, decode2)
    ensures Contains(Analyze(r, path, run1, decode1).error, run1(AnalyseInvocation(r, path)).stderr)
  {
    var e := run1(AnalyseInvocation(r, path)).stderr;
    ContainsInfix(ExecutionFailedPrefix, e, "");
    assert ExecutionFailedPrefix + e + "" == ExecutionFailedPrefix + e;
  }

  /**
   * A fatal exit reaches the tool's caller as an error response whose text
   * carries standard error, whatever the caller puts in front of the message.
   */
  lemma FatalExitErrorResponse(r: Runner, path: string, run: Invocation -> ProcessOutcome, decode: string -> Decoded, prefix: string)
    requires var o := run(AnalyseInvocation(r, path)); o.Finished? && Fatal(o.exitCode)
    ensures var res := Analyze(r, path, run, decode);
      res.Failure? && Contains(CreateDefaultErrorResponse(prefix + res.error).text, run(AnalyseInvocation(r, path)).stderr)
  {
    var e := run(AnalyseInvocation(r, path)).stderr;
    var m := ExecutionFailedPrefix + e;
    ContainsInfix(prefix + ExecutionFailedPrefix, e, "");
    assert prefix + ExecutionFailedPrefix + e + "" == prefix + m;
    ContainsWithin(FailurePrefix, prefix + m, FailureSuffix, e);
  }

  /** An analysis that printed nothing maps to a passing report with no errors and no files. */
  lemma EmptyOutputPasses(level: string)
    ensures var rep := MapToMcpResponse(EmptyOutput, level);
      rep.summary.status == "passed" && rep.summary.totalErrors == 0 && rep.summary.filesAnalyzed == 0
      && rep.errors == [] && rep.files == []
      && ReadSummaryLine(rep.text) == Some(Reading(true, 0, "errors", 0, "file(s)")) && EndsWith(rep.text, PassedStatus)
  {
    var rep := MapToMcpResponse(EmptyOutput, level);
    ReadBackSummaryLine(rep.summary);
    SummaryLineStatus(rep.summary);
  }

  /** The version probe: the binary with `--version` alone, under the process library's default time limit. */
  function VersionInvocation(r: Runner): Invocation {
    Invocation([r.binary, "--version"], None)
  }

  /**
   * `getVersion`: a probe that throws propagates its exception; one that does
   * not exit with 0 gives no version; otherwise the trimmed output is searched
   * for the banner and version.
   */
  function GetVersion(r: Runner, run: Invocation -> ProcessOutcome): (res: Result<Option<string>, string>)
    ensures var o := run(VersionInvocation(r)); res.Failure? <==> o.Threw?
    ensures var o := run(VersionInvocation(r));
      res.Success? && res.value.Some? ==> o.exitCode == Some(0) && IsVersion(res.value.value)
    ensures var o := run(VersionInvocation(r));
      o.Finished? && o.exitCode == Some(0) ==> (res.value.Some? <==> exists k: nat :: MatchAt(Trim(o.stdout), k))
    ensures var o := run(VersionInvocation(r));
      o.Finished? && res.Success? && res.value.Some? ==>
        var text := Trim(o.stdout);
        exists k: nat :: LeftmostMatch(text, k) && Captured(text[k + |Banner|..], res.value.value)
  {
    match run(VersionInvocation(r))
    case Threw(m) => Failure(m)
    case Finished(code, stdout, _) =>
      if code != Some(0) then Success(None) else Success(FindVersion(Trim(stdout)))
  }
}

=== FILE: seqs.dfy ===
/**
 * Concatenating a sequence of sequences, and where each part ends up: the
 * shape of every order-preserving flatten in the model.
 */
module Sequences {

  /** `f` applied to each element, in order. */
  function MapEach<A, B>(xs: seq<A>, f: A -> B): (ys: seq<B>)
    ensures |ys| == |xs| && forall i :: 0 <= i < |xs| ==> ys[i] == f(xs[i])
  {
    seq(|xs|, i requires 0 <= i < |xs| => f(xs[i]))
  }

  /** Mapping distributes over joining. */
  lemma MapEachJoin<A, B>(a: seq<A>, b: seq<A>, f: A -> B)
    ensures MapEach(a + b, f) == MapEach(a, f) + MapEach(b, f)
  {
    var p, q, r := MapEach(a + b, f), MapEach(a, f), MapEach(b, f);
    forall i | 0 <= i < |p|
      ensures p[i] == (q + r)[i]
    {
      if i < |a| {
        assert (a + b)[i] == a[i];
      } else {
        assert (a + b)[i] == b[i - |a|];
      }
    }
  }

  /** Mapping commutes with taking a prefix. */
  lemma MapEachPrefix<A, B>(xs: seq<A>, n: nat, f: A -> B)
    requires n <= |xs|
    ensures MapEach(xs[..n], f) == MapEach(xs, f)[..n]
  {
  }

  /** The parts one after another, in order. */
  function Concat<T>(parts: seq<seq<T>>): seq<T> {
    if |parts| == 0 then [] else Concat(parts[..|parts| - 1]) + parts[|parts| - 1]
  }

  lemma ConcatAppend<T>(parts: seq<seq<T>>, last: seq<T>)
    ensures Concat(parts + [last]) == Concat(parts) + last
  {
    assert (parts + [last])[..|parts|] == parts;
  }

  /** Concatenation distributes over joining the lists of parts. */
  lemma {:induction false} ConcatJoin<T>(a: seq<seq<T>>, b: seq<seq<T>>)
    ensures Concat(a + b) == Concat(a) + Concat(b)
    decreases |b|
  {
    if |b| == 0 {
      assert a + b == a;
    } else {
      var b' := b[..|b| - 1];
      assert a + b == (a + b') + [b[|b| - 1]];
      ConcatAppend(a + b', b[|b| - 1]);
      ConcatJoin(a, b');
      ConcatAppend(b', b[|b| - 1]);
      assert b' + [b[|b| - 1]] == b;
    }
  }

  /** Where part `k` starts in the concatenation. */
  function PartOffset<T>(parts: seq<seq<T>>, k: nat): nat
    requires k <= |parts|
  {
    |Concat(parts[..k])|
  }

  /** Part `k` is the slice of the concatenation between its offset and the next one. */
  lemma PartSlice<T>(parts: seq<seq<T>>, k: nat)
    requires k < |parts|
    ensures PartOffset(parts, k) + |parts[k]| == PartOffset(parts, k + 1) <= |Concat(parts)|
    ensures Concat(parts)[PartOffset(parts, k)..PartOffset(parts, k + 1)] == parts[k]
  {
    var front := parts[..k];
    var rest := parts[k + 1..];
    assert parts[..k + 1] == front + [parts[k]];
    ConcatAppend(front, parts[k]);
    assert parts == parts[..k + 1] + rest;
    ConcatJoin(parts[..k + 1], rest);
  }

  /** An element is in the concatenation exactly when it is in some part. */
  lemma {:induction false} ConcatMembership<T>(parts: seq<seq<T>>, x: T)
    ensures x in Concat(parts) <==> exists k :: 0 <= k < |parts| && x in parts[k]
    decreases |parts|
  {
    if |parts| > 0 {
      var n := |parts| - 1;
      var front := parts[..n];
      ConcatMembership(front, x);
      if exists k :: 0 <= k < n && x in front[k] {
        var k :| 0 <= k < n && x in front[k];
        assert x in parts[k];
      }
      if exists k :: 0 <= k < |parts| && x in parts[k] {
        var k :| 0 <= k < |parts| && x in parts[k];
        if k < n {
          assert x in front[k];
        }
      }
    }
  }

  /** Parts of at most one element concatenate to no more elements than there are parts. */
  lemma {:induction false} ConcatShort<T>(parts: seq<seq<T>>)
    requires forall k :: 0 <= k < |parts| ==> |parts[k]| <= 1
    ensures |Concat(parts)| <= |parts|
    decreases |parts|
  {
    if |parts| > 0 {
      ConcatShort(parts[..|parts| - 1]);
    }
  }

  /** Parts of exactly one element concatenate to those elements, in order. */
  lemma {:induction false} ConcatSingletons<T>(parts: seq<seq<T>>)
    requires forall k :: 0 <= k < |parts| ==> |parts[k]| == 1
    ensures |Concat(parts)| == |parts|
    ensures forall k :: 0 <= k < |parts| ==> Concat(parts)[k] == parts[k][0]
    decreases |parts|
  {
    if |parts| > 0 {
      var n := |parts| - 1;
      var front := parts[..n];
      ConcatSingletons(front);
      assert Concat(parts) == Concat(front) + parts[n];
      forall k | 0 <= k < n
        ensures Concat(parts)[k] == parts[k][0]
      {
        assert front[k] == parts[k];
      }
    }
  }
}

=== FILE: severity.dfy ===
/**
 * Severity classification of one PHPStan message: an ordered, first-match-wins
 * list of substring tests on the rule identifier.
 */
module Severity {
  import opened Base
  import opened Strings
  import opened PhpValues
  import opened PhpStanOutput

  datatype Severity = Error | Warning | Info

  /** The identifier the classifier inspects: a string identifier, or "" for a missing, null or non-string one. */
  function IdentifierText(m: MessageFields): string {
    match Coalesce(m.identifier, Str(""))
    case Str(s) => s
    case _ => ""
  }

  /** `(bool) ($message['ignorable'] ?? false)`. */
  predicate IsIgnorable(m: MessageFields) {
    ToBool(Coalesce(m.ignorable, Bool(false)))
  }

  /** A string identifier is inspected as it is; a missing, null or non-string one as "". */
  lemma IdentifierTextCases(m: MessageFields)
    ensures m.identifier.Some? && m.identifier.value.Str? ==> IdentifierText(m) == m.identifier.value.s
    ensures m.identifier.None? || !m.identifier.value.Str? ==> IdentifierText(m) == ""
  {
  }

  /** A missing flag is not ignorable; a present one is ignorable unless `(bool)` makes it false. */
  lemma IsIgnorableCases(m: MessageFields)
    ensures m.ignorable.None? ==> !IsIgnorable(m)
    ensures m.ignorable.Some? ==> (IsIgnorable(m) <==> m.ignorable.value !in FalseValues)
  {
    if m.ignorable.Some? {
      ToBoolFalseValues(m.ignorable.value);
    }
  }

  /**
   * The classifier. Rules, first match wins: "deprecated" gives a warning;
   * "unused" or "dead" gives info; "missingType" on an ignorable message gives
   * a warning; anything else is an error.
   */
  function MapSeverity(m: MessageFields): (r: Severity)
    ensures var id := IdentifierText(m);
      && (r == Info <==> !Contains(id, "deprecated") && (Contains(id, "unused") || Contains(id, "dead")))
      && (r == Warning <==>
            Contains(id, "deprecated")
            || (!Contains(id, "unused") && !Contains(id, "dead") && Contains(id, "missingType") && IsIgnorable(m)))
  {
    var id := IdentifierText(m);
    if Contains(id, "deprecated") then Warning
    else if Contains(id, "unused") || Contains(id, "dead") then Info
    else if Contains(id, "missingType") && IsIgnorable(m) then Warning
    else Error
  }

  function WithIdentifier(id: string, ignorable: Option<Value>): MessageFields {
    MessageFields(None, None, Some(Str(id)), ignorable)
  }

  /** "deprecated" anywhere in the identifier wins over every other rule. */
  lemma DeprecatedWins(a: string, b: string, ignorable: Option<Value>)
    ensures MapSeverity(WithIdentifier(a + "deprecated" + b, ignorable)) == Warning
  {
    ContainsInfix(a, "deprecated", b);
  }

  /** Without "deprecated", an "unused" or "dead" identifier is informational whatever the flag says. */
  lemma UnusedOrDeadIsInfo(a: string, marker: string, b: string, ignorable: Option<Value>)
    requires marker == "unused" || marker == "dead"
    requires !Contains(a + marker + b, "deprecated")
    ensures MapSeverity(WithIdentifier(a + marker + b, ignorable)) == Info
  {
    ContainsInfix(a, marker, b);
  }

  /** The `ignorable` flag only matters for "missingType" identifiers. */
  lemma IgnorableOnlyMattersForMissingType(m: MessageFields, flag: Option<Value>)
    requires !Contains(IdentifierText(m), "missingType")
    ensures MapSeverity(m.(ignorable := flag)) == MapSeverity(m)
  {
  }

  /** A "missingType" identifier matching no earlier rule is a warning exactly when the message is ignorable. */
  lemma MissingTypeNeedsIgnorable(a: string, b: string, ignorable: Option<Value>)
    requires var id := a + "missingType" + b;
      !Contains(id, "deprecated") && !Contains(id, "unused") && !Contains(id, "dead")
    ensures var m := WithIdentifier(a + "missingType" + b, ignorable);
      MapSeverity(m) == (if IsIgnorable(m) then Warning else Error)
  {
    ContainsInfix(a, "missingType", b);
  }

  /** A missing, null or non-string identifier is classified as the empty one: always an error. */
  lemma NonStringIdentifierIsError(m: MessageFields)
    requires m.identifier.None? || !m.identifier.value.Str?
    ensures MapSeverity(m) == Error
  {
    assert IdentifierText(m) == "";
    NoneInEmpty("deprecated");
    NoneInEmpty("unused");
    NoneInEmpty("dead");
    NoneInEmpty("missingType");
  }

  lemma NoneInEmpty(t: string)
    requires |t| > 0
    ensures !Contains("", t)
  {
  }

  /** Rule order matters: "deprecated.unused.thing" matches the first two rules and the first one wins. */
  lemma DeprecatedUnusedThing()
    ensures Contains("deprecated.unused.thing", "unused")
    ensures MapSeverity(WithIdentifier("deprecated.unused.thing", None)) == Warning
  {
    var id := "deprecated.unused.thing";
    assert id == "deprecated." + "unused" + ".thing";
    ContainsInfix("deprecated.", "unused", ".thing");
    assert id == "" + "deprecated" + ".unused.thing";
    DeprecatedWins("", ".unused.thing", None);
  }
}

=== FILE: strings.dfy ===
/**
 * The handful of PHP string primitives the mapper and the runner rely on:
 * `str_contains`, `str_replace` with an empty replacement, `ltrim` of one
 * character, `trim`, and the decimal rendering of an `int`.
 */
module Strings {

  predicate IsDigit(c: char) { '0' <= c <= '9' }

  predicate AllDigits(s: string) { forall i :: 0 <= i < |s| ==> IsDigit(s[i]) }

  /** `t` occurs in `s` starting at index `i`. */
  predicate OccursAt(s: string, t: string, i: nat) {
    i + |t| <= |s| && s[i..i + |t|] == t
  }

  /** `t` is a suffix of `s`. */
  predicate EndsWith(s: string, t: string) {
    |t| <= |s| && s[|s| - |t|..] == t
  }

  /** PHP `str_contains(s, t)`, computed by scanning `s` from the left. */
  predicate Contains(s: string, t: string)
    decreases |s|
  {
    if t <= s then true
    else if |s| == 0 then false
    else Contains(s[1..], t)
  }

  /** The scan agrees with the positional definition of an occurrence. */
  lemma {:induction false} ContainsIff(s: string, t: string)
    ensures Contains(s, t) <==> exists i: nat :: OccursAt(s, t, i)
    decreases |s|
  {
    if t <= s {
      assert OccursAt(s, t, 0);
    } else if |s| == 0 {
      forall i: nat | OccursAt(s, t, i) ensures false {
      }
    } else {
      ContainsIff(s[1..], t);
      if Contains(s[1..], t) {
        var i: nat :| OccursAt(s[1..], t, i);
        assert s[1..][i..i + |t|] == s[i + 1..i + 1 + |t|];
        assert OccursAt(s, t, i + 1);
      } else {
        forall i: nat | OccursAt(s, t, i) ensures false {
          if i > 0 {
            assert s[1..][i - 1..i - 1 + |t|] == s[i..i + |t|];
            assert OccursAt(s[1..], t, i - 1);
          }
        }
      }
    }
  }

  /** Whatever surrounds it, a string contains itself. */
  lemma ContainsInfix(a: string, t: string, b: string)
    ensures Contains(a + t + b, t)
  {
    var s := a + t + b;
    assert s[|a|..|a| + |t|] == t;
    assert OccursAt(s, t, |a|);
    ContainsIff(s, t);
  }

  /** Containment survives putting text on either side. */
  lemma ContainsWithin(a: string, m: string, b: string, t: string)
    requires Contains(m, t)
    ensures Contains(a + m + b, t)
  {
    ContainsIff(m, t);
    var i: nat :| OccursAt(m, t, i);
    var s := a + m + b;
    assert s[|a| + i..|a| + i + |t|] == m[i..i + |t|];
    assert OccursAt(s, t, |a| + i);
    ContainsIff(s, t);
  }

  /**
   * PHP `str_replace(pat, "", s)`: one left-to-right pass that deletes every
   * leftmost, non-overlapping occurrence of `pat`. The result is not rescanned,
   * so deleting can make a new occurrence appear. An empty `pat` leaves `s`
   * unchanged, as PHP does.
   */
  function StripAll(s: string, pat: string): (r: string)
    ensures |r| <= |s|
    decreases |s|
  {
    if |pat| == 0 || |s| == 0 then s
    else if pat <= s then StripAll(s[|pat|..], pat)
    else [s[0]] + StripAll(s[1..], pat)
  }

  /** Without an occurrence of `pat`, `StripAll` is the identity. */
  lemma {:induction false} StripAllWithoutOccurrence(s: string, pat: string)
    requires !Contains(s, pat)
    ensures StripAll(s, pat) == s
    decreases |s|
  {
    if |pat| == 0 || |s| == 0 {
    } else {
      assert !(pat <= s);
      StripAllWithoutOccurrence(s[1..], pat);
      assert s == [s[0]] + s[1..];
    }
  }

  /** An occurrence of `pat` at the very front is deleted and the scan resumes after it. */
  lemma StripAllLeading(pat: string, s: string)
    requires |pat| > 0
    ensures StripAll(pat + s, pat) == StripAll(s, pat)
  {
    assert pat <= pat + s;
    assert (pat + s)[|pat|..] == s;
  }

  /** A first character that does not start an occurrence is copied unchanged. */
  lemma StripAllKeepsHead(c: char, s: string, pat: string)
    requires |pat| > 0 && !(pat <= [c] + s)
    ensures StripAll([c] + s, pat) == [c] + StripAll(s, pat)
  {
    assert ([c] + s)[1..] == s;
  }

  /**
   * PHP `ltrim(s, c)` for a one-character list: the longest suffix of `s`
   * that does not start with `c`.
   */
  function TrimLeft(s: string, c: char): (r: string)
    ensures |r| <= |s| && r == s[|s| - |r|..]
    ensures |r| > 0 ==> r[0] != c
    ensures forall i :: 0 <= i < |s| - |r| ==> s[i] == c
    decreases |s|
  {
    if |s| > 0 && s[0] == c then
      var t := s[1..];
      var r := TrimLeft(t, c);
      assert t[|t| - |r|..] == s[|s| - |r|..];
      assert forall i :: 1 <= i < |s| - |r| ==> s[i] == t[i - 1];
      r
    else s
  }

  /** The characters PHP `trim` strips by default: space, \t, \n, \r, NUL and vertical tab. */
  predicate IsTrimmed(c: char) {
    c == ' ' || c == '\t' || c == '\n' || c == '\r' || c == '\0' || c as int == 11
  }

  /** Number of leading characters of `s` that `trim` strips. */
  function LeadingTrimmed(s: string): (n: nat)
    ensures n <= |s|
    ensures forall i :: 0 <= i < n ==> IsTrimmed(s[i])
    ensures n < |s| ==> !IsTrimmed(s[n])
    decreases |s|
  {
    if |s| > 0 && IsTrimmed(s[0]) then 1 + LeadingTrimmed(s[1..]) else 0
  }

  /** Number of trailing characters of `s` that `trim` strips. */
  function TrailingTrimmed(s: string): (n: nat)
    ensures n <= |s|
    ensures forall i :: |s| - n <= i < |s| ==> IsTrimmed(s[i])
    ensures n < |s| ==> !IsTrimmed(s[|s| - n - 1])
    decreases |s|
  {
    if |s| > 0 && IsTrimmed(s[|s| - 1]) then 1 + TrailingTrimmed(s[..|s| - 1]) else 0
  }

  /** PHP `trim(s)` with the default character list. */
  function Trim(s: string): (r: string)
    ensures exists a, b :: 0 <= a <= b <= |s| && r == s[a..b] && TrimmedAround(s, a, b)
    ensures |r| > 0 ==> !IsTrimmed(r[0]) && !IsTrimmed(r[|r| - 1])
  {
    var a := LeadingTrimmed(s);
    var b := |s| - TrailingTrimmed(s[a..]);
    assert TrimmedAround(s, a, b);
    s[a..b]
  }

  /** Everything of `s` outside `s[a..b]` is a character `trim` strips. */
  predicate TrimmedAround(s: string, a: nat, b: nat)
    requires a <= b <= |s|
  {
    (forall i :: 0 <= i < a ==> IsTrimmed(s[i])) && (forall i :: b <= i < |s| ==> IsTrimmed(s[i]))
  }

  function DigitChar(d: nat): (c: char)
    requires d < 10
    ensures IsDigit(c)
  {
    ('0' as int + d) as char
  }

  function DigitValue(c: char): (d: nat)
    requires IsDigit(c)
    ensures d < 10 && DigitChar(d) == c
  {
    c as int - '0' as int
  }

  /** The decimal value of a string of digits (most significant first). */
  function DigitsValue(s: string): nat
    requires AllDigits(s)
  {
    if |s| == 0 then 0 else 10 * DigitsValue(s[..|s| - 1]) + DigitValue(s[|s| - 1])
  }

  /** Decimal digits of `n`, without leading zeros. */
  function NatToDigits(n: nat): (s: string)
    ensures |s| > 0 && AllDigits(s)
    ensures |s| > 1 ==> s[0] != '0'
  {
    if n < 10 then [DigitChar(n)] else NatToDigits(n / 10) + [DigitChar(n % 10)]
  }

  /** Reading the digits back gives the number: `DigitsValue` inverts `NatToDigits`. */
  lemma {:induction false} DigitsRoundTrip(n: nat)
    ensures DigitsValue(NatToDigits(n)) == n
  {
    var s := NatToDigits(n);
    if n >= 10 {
      DigitsRoundTrip(n / 10);
      assert s[..|s| - 1] == NatToDigits(n / 10);
    }
  }

  /** PHP `(string) $i` for an `int`: an optional '-' and the decimal digits. */
  function IntToString(i: int): (s: string)
    ensures |s| > 0
    ensures forall k :: 0 <= k < |s| ==> IsDigit(s[k]) || (k == 0 && s[k] == '-')
    ensures i < 0 <==> s[0] == '-'
  {
    if i < 0 then "-" + NatToDigits(-i) else NatToDigits(i)
  }

  /** The rendering is canonical: no leading zero after the optional '-', except for "0" itself. */
  lemma IntToStringCanonical(i: int)
    ensures var s := IntToString(i);
      && (s[0] == '0' ==> s == "0")
      && (s[0] == '-' ==> |s| > 1 && s[1] != '0')
  {
    if i < 0 {
      var d := NatToDigits(-i);
      assert IntToString(i)[1..] == d;
      assert |d| == 1 ==> d[0] != '0';
    }
  }
}

=== FILE: version.dfy ===
/**
 * The version probe's text match: the first place where the banner
 * "PHPStan - PHP Static Analysis Tool " is followed by three dot-separated
 * runs of ASCII digits, read the way a backtracking regular-expression engine
 * reads `(\d+\.\d+\.\d+)` — each run as long as it can be.
 */
module VersionPattern {
  import opened Base
  import opened Strings
  import opened NumericStrings

  const Banner := "PHPStan - PHP Static Analysis Tool "

  /** `v` splits at `i` and `j` into digits '.' digits '.' digits, every run non-empty. */
  predicate VersionSplit(v: string, i: nat, j: nat) {
    0 < i && i + 1 < j && j + 1 < |v|
    && AllDigits(v[..i]) && v[i] == '.'
    && AllDigits(v[i + 1..j]) && v[j] == '.'
    && AllDigits(v[j + 1..])
  }

  /** `v` is a version number: the shape `\d+\.\d+\.\d+`. */
  predicate IsVersion(v: string) {
    exists i: nat, j: nat | i < j < |v| :: VersionSplit(v, i, j)
  }

  /**
   * `v` is what `(\d+\.\d+\.\d+)` captures at the start of `t`: a version
   * that is a prefix of `t` and is not followed by a further digit.
   */
  predicate Captured(t: string, v: string) {
    IsVersion(v) && v <= t && (|v| == |t| || !IsDigit(t[|v|]))
  }

  /**
   * The version at the very start of `t`, if any: the longest prefix of the
   * version shape (the first two runs cannot be shortened, since a '.' must
   * follow them; the last run takes every digit there is).
   */
  function VersionAt(t: string): (r: Option<string>)
    ensures r.Some? ==> Captured(t, r.value)
  {
    var a := DigitRun(t);
    if a == 0 || a == |t| || t[a] != '.' then None
    else
      var t1 := t[a + 1..];
      var b := DigitRun(t1);
      if b == 0 || b == |t1| || t1[b] != '.' then None
      else
        var t2 := t1[b + 1..];
        var c := DigitRun(t2);
        if c == 0 then None
        else
          var n := a + 1 + b + 1 + c;
          var v := t[..n];
          assert v[..a] == t[..a];
          assert v[a + 1..a + 1 + b] == t1[..b];
          assert v[a + 1 + b + 1..] == t2[..c];
          assert VersionSplit(v, a, a + 1 + b);
          Some(v)
  }

  /** When no version is read at the start of `t`, no prefix of `t` has the version shape. */
  lemma NoVersionAt(t: string, n: nat, i: nat, j: nat)
    requires VersionAt(t).None? && n <= |t|
    ensures !VersionSplit(t[..n], i, j)
  {
    if VersionSplit(t[..n], i, j) {
      var v := t[..n];
      var a := DigitRun(t);
      assert AllDigits(t[..i]) by { assert t[..i] == v[..i]; }
      DigitRunUnique(t, i);
      var t1 := t[a + 1..];
      assert AllDigits(t1[..j - i - 1]) by { assert t1[..j - i - 1] == v[i + 1..j]; }
      DigitRunUnique(t1, j - i - 1);
    }
  }

  /** The version is read at the start of `t` exactly when some prefix of `t` has the version shape. */
  lemma VersionAtIff(t: string)
    ensures VersionAt(t).Some? <==> exists n: nat :: n <= |t| && IsVersion(t[..n])
  {
    if VersionAt(t).Some? {
      var v := VersionAt(t).value;
      assert t[..|v|] == v;
    } else {
      forall n: nat | n <= |t| ensures !IsVersion(t[..n]) {
        forall i: nat, j: nat | i < j < n ensures !VersionSplit(t[..n], i, j) {
          NoVersionAt(t, n, i, j);
        }
      }
    }
  }

  /** The pattern matches at index `k` of `s`: the banner starts there and a version follows it. */
  predicate MatchAt(s: string, k: nat) {
    OccursAt(s, Banner, k) && VersionAt(s[k + |Banner|..]).Some?
  }

  /** `k` is the leftmost index where the pattern matches. */
  predicate LeftmostMatch(s: string, k: nat) {
    MatchAt(s, k) && forall k' :: 0 <= k' < k ==> !MatchAt(s, k')
  }

  /** The leftmost index at or after `from` where the pattern matches. */
  function FirstMatch(s: string, from: nat): (r: Option<nat>)
    ensures r.Some? ==> from <= r.value && MatchAt(s, r.value)
    ensures r.Some? ==> forall k :: from <= k < r.value ==> !MatchAt(s, k)
    ensures r.None? ==> forall k :: from <= k ==> !MatchAt(s, k)
    decreases |s| - from
  {
    if from + |Banner| > |s| then None
    else if MatchAt(s, from) then Some(from)
    else FirstMatch(s, from + 1)
  }

  /** `preg_match` with the probe's pattern: the first capture group of the leftmost match. */
  function FindVersion(s: string): (r: Option<string>)
    ensures r.Some? <==> exists k: nat :: MatchAt(s, k)
    ensures r.Some? ==> IsVersion(r.value)
    ensures r.Some? ==> exists k: nat :: LeftmostMatch(s, k) && Captured(s[k + |Banner|..], r.value)
  {
    var m := FirstMatch(s, 0);
    if m.Some? then
      var v := VersionAt(s[m.value + |Banner|..]);
      assert LeftmostMatch(s, m.value);
      v
    else None
  }
}
